=== FILE: README.md ===
# gestion-tareas: ownership-scoped task management, modelled in Dafny

This project models the core of a multi-user task manager (a Spring Boot backend
with an Angular client). Each user keeps a private list of tasks (`Tarea`):
title, description, due date, priority, completion flag and an optional category.
The model covers:

- the task table and its owner-scoped queries (`TareaRepository`);
- the task service (`TareaService`), where every single-task read, update,
  completion toggle and delete goes through the owner-checked lookup
  `findByIdAndUsuarioId`;
- the user table, registration and the credential check (`Usuario`,
  `UsuarioRepository`, `UsuarioService`);
- login and registration outcomes (`UsuarioController`);
- category CRUD, including the cascade that deletes a category's tasks
  (`CategoriaService`, `Categoria`);
- the task endpoints and the task-to-DTO projection (`TareaController`);
- the client's pure list logic (`tareasFiltradas`, `paginas`, category labels)
  and the dashboard counters.

Tables are maps from a generated id to an immutable record, plus the next identity
value (`Tabla`). SQL leaves the order of a query without `ORDER BY`
unspecified; the model fixes it as ascending id (see "## Left out").
Operations are pure functions that return the new table and an `Option` or
`Result`. Exceptions become values of `Errores.Error`, and controller outcomes
become `Respuestas.Respuesta`. The caller's identity (the `X-Usuario-Id`
header) is an explicit, already-resolved parameter. The token signer is a
function parameter `issue`, and the dashboard's "next three days" test is a
predicate parameter `enVentana`.

Files: `wrappers.dfy` (Option, Result), `text.dfy` (lower-casing, substring
search, blank check, decimal printing), `tabla.dfy` (tables, sorting, pages),
`listas.dfy` (order-preserving filter), `errores.dfy` (errors, responses),
`entidades.dfy` (Tarea, Categoria, Usuario), then one file per repository,
service and controller, plus `tareas_list.dfy` and `dashboard.dfy` for the client.

The `/api/tareas/usuario/{usuarioId}/…` listings take the owner from the path and
not from the header. They are scoped to the path's user, not to the caller.

## Model

| member | source | states |
|---|---|---|
| Tareas.NuevaTarea | src/main/java/com/portafolio/gestiontareas/entity/Tarea.java:20-48 | a new task is pending, has priority MEDIA, is stamped with the construction instant, and has no id, owner, category, description or due date |
| Tareas.NombrePrioridadBiyectiva | src/main/java/com/portafolio/gestiontareas/entity/Tarea.java:28-43 | the three priorities are stored by name; parsing a name gives back its priority, and only the three names parse |
| Usuarios.NuevoUsuario | src/main/java/com/portafolio/gestiontareas/entity/Usuario.java:28-40 | a new user is enabled, stamped with the construction instant, and not yet valid (blank credentials) |
| Usuarios.NuevoUsuarioCon | src/main/java/com/portafolio/gestiontareas/entity/Usuario.java:42-47 | the three-argument constructor sets username, email and password on top of the defaults |
| Tabla.Claves | src/main/java/com/portafolio/gestiontareas/repository/TareaRepository.java:24-25 | a scan lists exactly the keys whose row satisfies the WHERE predicate, each once (strictly ascending, the model's fixed order) |
| Tabla.ContarEsLongitud | src/main/java/com/portafolio/gestiontareas/repository/TareaRepository.java:32-33 | COUNT over a predicate equals the length of the matching listing |
| Orden.OrdenarPor | src/main/java/com/portafolio/gestiontareas/repository/TareaRepository.java:48-49 | the ORDER BY result is sorted by the key and is a permutation of its input |
| Orden.Pagina | src/main/java/com/portafolio/gestiontareas/repository/TareaRepository.java:20-21 | a page holds at most size rows, is the contiguous window starting at page*size, and is empty past the end |
| Orden.PaginaEsPagina | src/main/java/com/portafolio/gestiontareas/repository/TareaRepository.java:20-21 | a page is exactly the window at page*size: no longer than size, min(size, remaining) long when the offset is inside the listing, each element the one at its offset |
| Orden.PaginasDisjuntas | src/main/java/com/portafolio/gestiontareas/repository/TareaRepository.java:20-21 | pages of one size at different indices never share an element of a duplicate-free listing |
| TareaRepository.FindByIdAndUsuarioId | src/main/java/com/portafolio/gestiontareas/repository/TareaRepository.java:40-41 | present iff the id is stored and its owner is the given user; then it is that row |
| TareaRepository.FindByUsuarioId | src/main/java/com/portafolio/gestiontareas/repository/TareaRepository.java:24-25 | exactly the user's stored tasks, each once (listed in ascending id, the model's fixed choice of the unspecified order) |
| TareaRepository.FindByUsuarioIdAndCompletada | src/main/java/com/portafolio/gestiontareas/repository/TareaRepository.java:28-29 | exactly the user's tasks with that completion flag, each once (listed in ascending id, the model's fixed choice) |
| TareaRepository.ParticionPorEstado | src/main/java/com/portafolio/gestiontareas/repository/TareaRepository.java:24-29 | the completed and pending listings are disjoint, together hold exactly the user's listing, and their lengths add up to it |
| TareaRepository.CountEsLongitud | src/main/java/com/portafolio/gestiontareas/repository/TareaRepository.java:32-33 | the pending count equals the number of the user's pending tasks |
| TareaRepository.CountByUsuarioIdAndCompletadaFalse | src/main/java/com/portafolio/gestiontareas/repository/TareaRepository.java:32-33 | the count equals the number of the user's pending tasks listed by findByUsuarioIdAndCompletada(u, false) |
| TareaRepository.FindByUsuarioIdAndPrioridad | src/main/java/com/portafolio/gestiontareas/repository/TareaRepository.java:36-37 | exactly the user's tasks with that priority |
| TareaRepository.FindByUsuarioIdAndCategoriaId | src/main/java/com/portafolio/gestiontareas/repository/TareaRepository.java:44-45 | exactly the user's tasks filed under that category; a task without a category never appears |
| TareaRepository.FindTareasProximasAVencerByUsuario | src/main/java/com/portafolio/gestiontareas/repository/TareaRepository.java:48-49 | exactly the user's pending, dated tasks, in non-decreasing due date; undated tasks never appear |
| TareaRepository.FindByUsuarioIdAndTituloContaining | src/main/java/com/portafolio/gestiontareas/repository/TareaRepository.java:52-53 | the user's tasks whose lower-cased title contains the lower-cased query |
| TareaRepository.OrdenadasDeUsuario | src/main/java/com/portafolio/gestiontareas/repository/TareaRepository.java:20-21 | the sorted listing behind a page holds each of the user's stored tasks once, in non-decreasing order of the sort key |
| TareaRepository.FindByUsuarioIdPaginado | src/main/java/com/portafolio/gestiontareas/repository/TareaRepository.java:20-21 | a page holds at most size of the user's tasks; it is the contiguous window of the user's sorted tasks that starts at page*size, and it holds min(size, remaining) tasks whenever that offset is inside the listing |
| TareaRepository.PaginasDisjuntas | src/main/java/com/portafolio/gestiontareas/repository/TareaRepository.java:20-21 | two different pages of one size share no task |
| TareaRepository.PaginasCubren | src/main/java/com/portafolio/gestiontareas/repository/TareaRepository.java:20-21 | every task of the user appears on some page |
| TareaRepository.Persistir | src/main/java/com/portafolio/gestiontareas/entity/Tarea.java:11-16 | saving a new task rejects a blank title with its constraint message; otherwise it inserts under a fresh identity value and keeps the table invariant |
| TareaRepository.SaveAsWritten | src/main/java/com/portafolio/gestiontareas/service/TareaService.java:46 | save with a body id that names a stored row overwrites that row instead of inserting |
| TareaService.CrearTarea | src/main/java/com/portafolio/gestiontareas/service/TareaService.java:41-47 | no owner gives the IllegalArgument with its message; otherwise the task is stored as given under a new id, and no other task changes |
| TareaService.CrearTareaAsWrittenSeApropiaDeTareaAjena | src/main/java/com/portafolio/gestiontareas/service/TareaService.java:41-47 | with save as written, a body carrying another user's task id takes that task over |
| TareaService.CrearLuegoObtener | src/main/java/com/portafolio/gestiontareas/service/TareaService.java:41-52 | a created task is returned by the owner-checked lookup for its owner and new id |
| TareaService.ObtenerTareaPorIdYUsuario | src/main/java/com/portafolio/gestiontareas/service/TareaService.java:50-52 | a task comes back iff it exists and belongs to the caller |
| TareaService.ObtenerTareaPorId | src/main/java/com/portafolio/gestiontareas/service/TareaService.java:55-57 | the unscoped lookup returns the stored row iff the id exists |
| TareaService.ObtenerTareasPorUsuario | src/main/java/com/portafolio/gestiontareas/service/TareaService.java:26-28 | every stored task of the user and only those |
| TareaService.ObtenerTodasTareasPorUsuarioPaginado | src/main/java/com/portafolio/gestiontareas/service/TareaService.java:21-23 | the page is exactly the window of the user's tasks in the requested order starting at page*size: min(size, remaining) tasks when the offset is inside the listing, each the task at its offset; all stored and owned by the user |
| TareaService.ObtenerTareasPendientesPorUsuario | src/main/java/com/portafolio/gestiontareas/service/TareaService.java:65-67 | exactly the user's pending tasks |
| TareaService.ObtenerTareasCompletadasPorUsuario | src/main/java/com/portafolio/gestiontareas/service/TareaService.java:70-72 | exactly the user's completed tasks |
| TareaService.ObtenerTareasPorUsuarioYCategoria | src/main/java/com/portafolio/gestiontareas/service/TareaService.java:75-77 | exactly the user's tasks in that category |
| TareaService.ObtenerTareasPorPrioridadYUsuario | src/main/java/com/portafolio/gestiontareas/service/TareaService.java:128-130 | exactly the user's tasks with that priority |
| TareaService.BuscarTareasPorTituloYUsuario | src/main/java/com/portafolio/gestiontareas/service/TareaService.java:133-135 | exactly the user's tasks whose title contains the query, ignoring case |
| TareaService.BuscarVaciaDevuelveTodas | src/main/java/com/portafolio/gestiontareas/service/TareaService.java:133-135 | the empty query returns every task of the user |
| TareaService.ObtenerTareasProximasAVencer | src/main/java/com/portafolio/gestiontareas/service/TareaService.java:138-140 | the user's pending dated tasks, earliest due date first |
| TareaService.ContarTareasPendientesPorUsuario | src/main/java/com/portafolio/gestiontareas/service/TareaService.java:123-125 | the pending count equals the length of the pending listing |
| TareaService.AplicarCambios | src/main/java/com/portafolio/gestiontareas/service/TareaService.java:82-89 | an update copies title, description, flag, due date, priority and category; id, owner and creation instant never change |
| TareaService.ActualizarTarea | src/main/java/com/portafolio/gestiontareas/service/TareaService.java:80-93 | a missing or foreign id gives EntityNotFound("Tarea", id); otherwise only that row is rewritten, with the copied fields |
| TareaService.MarcarComoCompletada | src/main/java/com/portafolio/gestiontareas/service/TareaService.java:96-103 | fails not-found iff the task is not the caller's; otherwise only that task's flag becomes true |
| TareaService.MarcarComoPendiente | src/main/java/com/portafolio/gestiontareas/service/TareaService.java:106-113 | fails not-found iff the task is not the caller's; otherwise only that task's flag becomes false |
| TareaService.EliminarTarea | src/main/java/com/portafolio/gestiontareas/service/TareaService.java:116-120 | fails not-found iff the task is not the caller's; otherwise exactly that row is removed |
| TareaService.AislamientoDePropietario | src/main/java/com/portafolio/gestiontareas/service/TareaService.java:50-120 | another user can neither read, update, toggle nor delete a task, and gets the same not-found; the owner can read it |
| TareaService.AusenteYAjenaIndistinguibles | src/main/java/com/portafolio/gestiontareas/service/TareaService.java:90-120 | a missing id and a foreign id fail the same way |
| TareaService.CompletarIdempotente | src/main/java/com/portafolio/gestiontareas/service/TareaService.java:96-103 | completing a completed task succeeds and changes nothing |
| TareaService.CompletarLuegoReabrir | src/main/java/com/portafolio/gestiontareas/service/TareaService.java:96-113 | completing a pending task and then reopening it restores the table |
| TareaService.ListadosSoloDelPropietario | src/main/java/com/portafolio/gestiontareas/service/TareaService.java:21-140 | a task on any of the eight listings (paged, all, pending, completed, by category, by priority, by title, due soon) is stored and owned by the given user |
| TareaController.ConvertirATareaDTO | src/main/java/com/portafolio/gestiontareas/controller/TareaController.java:191-197 | the task reads back from its transfer object and the category id is the task's own; with no category both category fields are absent, with a category the name is that category's |
| TareaController.ConvertirATareaDTOCopia | src/main/java/com/portafolio/gestiontareas/controller/TareaController.java:180-200 | the projection copies every task field, so the task can be read back from it; both category fields are absent exactly when there is no category |
| TareaController.CrearTarea | src/main/java/com/portafolio/gestiontareas/controller/TareaController.java:33-47 | corrected creation endpoint: an unknown header user gives an empty bad request; for a known header user it succeeds exactly when the title is not blank; a failure stores nothing; on success a new task belongs to the header user under a fresh id |
| TareaController.CrearLuegoLeer | src/main/java/com/portafolio/gestiontareas/controller/TareaController.java:33-47 | a known caller's creation with a non-blank title succeeds, and reading the new id back answers exactly the creation response |
| TareaService.CrearTareaAsWritten | src/main/java/com/portafolio/gestiontareas/service/TareaService.java:41-47 | as written: no owner gives the IllegalArgument; a body id naming a stored task overwrites that row with the body (failing only on a blank title); any other body is created as by the corrected CrearTarea |
| TareaController.CrearTareaAsWritten | src/main/java/com/portafolio/gestiontareas/controller/TareaController.java:33-47 | the source's endpoint: the header user becomes the owner, a body id naming a stored task overwrites that task, whoever owned it; any other body behaves as the corrected endpoint |
| TareaController.CrearAsWrittenAlcanzaTareaAjena | src/main/java/com/portafolio/gestiontareas/controller/TareaController.java:33-47 | for every store, a known caller who posts a valid body carrying another user's task id succeeds and now owns that task |
| TareaController.CrearTareaIgnoraDuenoDelCuerpo | src/main/java/com/portafolio/gestiontareas/controller/TareaController.java:37-39 | the owner given in the body has no effect on creation |
| TareaController.PageRequest | src/main/java/com/portafolio/gestiontareas/controller/TareaController.java:57 | a negative page or a size below one is rejected |
| TareaController.ObtenerTareasDelUsuario | src/main/java/com/portafolio/gestiontareas/controller/TareaController.java:51-61 | a response is OK exactly when page >= 0 and size >= 1, else an illegal-argument error; an OK body projects exactly the window of the header user's sorted tasks starting at page*size, min(size, remaining) long when that offset is inside the listing |
| TareaController.PorDefectoSonLasDiezPrimeras | src/main/java/com/portafolio/gestiontareas/controller/TareaController.java:51-58 | without parameters the listing is the header user's first ten tasks by id |
| TareaController.ObtenerTareasDelUsuarioPorDefecto | src/main/java/com/portafolio/gestiontareas/controller/TareaController.java:51-58 | with the default page 0, size 10 and sort by id the listing always succeeds and holds at most ten tasks |
| TareaController.ObtenerTareaPorId | src/main/java/com/portafolio/gestiontareas/controller/TareaController.java:73-83 | answers the task iff it is the header user's, otherwise EntityNotFound |
| TareaController.ActualizarTarea | src/main/java/com/portafolio/gestiontareas/controller/TareaController.java:87-97 | a task not owned by the header user is not-found and the table is unchanged; for an owned task it succeeds exactly when the new title is not blank, and then the stored task and the answer are the old task with the six editable fields taken from the body, owner kept |
| TareaController.ActualizarLuegoLeer | src/main/java/com/portafolio/gestiontareas/controller/TareaController.java:87-97 | an owner's update with a non-blank title succeeds, and reading the task back answers exactly the update's response |
| TareaController.MarcarComoCompletada | src/main/java/com/portafolio/gestiontareas/controller/TareaController.java:101-110 | succeeds iff the task is the header user's, and then only its flag changes |
| TareaController.MarcarComoPendiente | src/main/java/com/portafolio/gestiontareas/controller/TareaController.java:114-123 | succeeds iff the task is the header user's, and then only its flag changes |
| TareaController.EliminarTarea | src/main/java/com/portafolio/gestiontareas/controller/TareaController.java:127-135 | succeeds iff the task is the header user's, and then removes only it |
| TareaController.EndpointsAisladosPorCabecera | src/main/java/com/portafolio/gestiontareas/controller/TareaController.java:73-135 | the header-scoped endpoints that take a task id in the path (read, update, both toggles, delete) neither reveal nor change another user's task, and corrected creation leaves it as it was; the source's creation endpoint is excluded because it does overwrite it (TareaController.CrearAsWrittenAlcanzaTareaAjena) |
| TareaController.ObtenerTareasPorUsuario | src/main/java/com/portafolio/gestiontareas/controller/TareaController.java:64-69 | every task of the path user, and only that user's |
| TareaController.ObtenerTareasPendientesPorUsuario | src/main/java/com/portafolio/gestiontareas/controller/TareaController.java:138-143 | every pending task of the path user, and only those |
| TareaController.ObtenerTareasCompletadasPorUsuario | src/main/java/com/portafolio/gestiontareas/controller/TareaController.java:146-151 | every completed task of the path user, and only those |
| TareaController.ObtenerTareasPorPrioridadYUsuario | src/main/java/com/portafolio/gestiontareas/controller/TareaController.java:154-160 | every task of the path user with that priority, and only those |
| TareaController.BuscarTareasPorTitulo | src/main/java/com/portafolio/gestiontareas/controller/TareaController.java:163-169 | every task of the path user whose title contains the query ignoring case, and only those |
| TareaController.ObtenerTareasProximasAVencer | src/main/java/com/portafolio/gestiontareas/controller/TareaController.java:172-177 | every pending dated task of the path user and only those, earliest due date first |
| UsuarioRepository.FindByUsername | src/main/java/com/portafolio/gestiontareas/repository/UsuarioRepository.java:13 | a returned user is stored and has that username; absent iff no user has it |
| UsuarioRepository.FindByEmail | src/main/java/com/portafolio/gestiontareas/repository/UsuarioRepository.java:16 | a returned user is stored and has that email; absent iff no user has it |
| UsuarioRepository.ExistsByUsernameIffFind | src/main/java/com/portafolio/gestiontareas/repository/UsuarioRepository.java:13-19 | the existence check holds iff the lookup finds a user |
| UsuarioRepository.ExistsByEmailIffFind | src/main/java/com/portafolio/gestiontareas/repository/UsuarioRepository.java:16-22 | the existence check holds iff the lookup finds a user |
| UsuarioRepository.FindByUsernameUnico | src/main/java/com/portafolio/gestiontareas/entity/Usuario.java:16-18 | usernames are unique, so looking up a user's name finds that user |
| UsuarioRepository.FindAll | src/main/java/com/portafolio/gestiontareas/service/UsuarioService.java:45-47 | every stored user once (listed in ascending id, the model's fixed choice of the unspecified order) |
| UsuarioRepository.Persistir | src/main/java/com/portafolio/gestiontareas/entity/Usuario.java:16-25 | a blank username, email or password fails with that field's message; a taken username or email fails on the unique column; otherwise the user is inserted under a fresh id |
| UsuarioRepository.Guardar | src/main/java/com/portafolio/gestiontareas/entity/Usuario.java:16-25 | an update fails on a blank field or a value another row holds, and otherwise rewrites only that row |
| UsuarioService.CrearUsuario | src/main/java/com/portafolio/gestiontareas/service/UsuarioService.java:30-42 | a taken username is reported before a taken email, and neither changes the table; otherwise exactly the new user is added under a fresh id |
| UsuarioService.CrearUsuarioSinViolacionDeUnicidad | src/main/java/com/portafolio/gestiontareas/service/UsuarioService.java:30-42 | the checks before the insert leave the unique columns nothing to reject |
| UsuarioService.CrearUsuarioAsWrittenSobrescribeCuenta | src/main/java/com/portafolio/gestiontareas/service/UsuarioService.java:41 | with save as written, a body carrying a stored user's id replaces that account's credentials |
| UsuarioService.VerificarCredencialesIff | src/main/java/com/portafolio/gestiontareas/service/UsuarioService.java:81-84 | the check holds iff a user with that username exists and its password equals the given one exactly |
| UsuarioService.VerificarCredenciales | src/main/java/com/portafolio/gestiontareas/service/UsuarioService.java:81-84 | true exactly when some stored user has that username and exactly that password |
| UsuarioService.ObtenerUsuarioPorId | src/main/java/com/portafolio/gestiontareas/service/UsuarioService.java:50-52 | present iff the id is stored |
| UsuarioService.ObtenerTodosUsuarios | src/main/java/com/portafolio/gestiontareas/service/UsuarioService.java:45-47 | every stored user appears, and only stored users |
| UsuarioService.ObtenerUsuarioPorUsername | src/main/java/com/portafolio/gestiontareas/service/UsuarioService.java:55-57 | present iff some user has that username, and then it is that stored user |
| UsuarioService.ObtenerTodosUsuariosPaginado | src/main/java/com/portafolio/gestiontareas/service/UsuarioService.java:25-27 | the page is exactly the window of all stored users starting at page*size: min(size, remaining) users when the offset is inside the listing, each the user at its offset |
| UsuarioService.ActualizarUsuario | src/main/java/com/portafolio/gestiontareas/service/UsuarioService.java:60-69 | a missing id gives EntityNotFound("Usuario", id); otherwise username, email and password are overwritten, the id and flags kept, and nothing else changes |
| UsuarioService.EliminarUsuario | src/main/java/com/portafolio/gestiontareas/service/UsuarioService.java:72-78 | fails not-found iff the id is absent; otherwise exactly that user is removed |
| UsuarioService.RegistrarLuegoVerificar | src/main/java/com/portafolio/gestiontareas/service/UsuarioService.java:41-84 | a registered user passes the credential check with the password given at registration |
| UsuarioService.RegistroDuplicadoFalla | src/main/java/com/portafolio/gestiontareas/service/UsuarioService.java:32-34 | registering a username a second time fails with "El username ya está en uso" |
| UsuarioController.Login | src/main/java/com/portafolio/gestiontareas/controller/UsuarioController.java:34-65 | a token is issued iff the credentials check, it is issued for the submitted username, and the body carries the stored user's projection; otherwise "Credenciales inválidas" |
| UsuarioController.LoginEmiteTokenSiiCredenciales | src/main/java/com/portafolio/gestiontareas/controller/UsuarioController.java:34-63 | a token is issued exactly for a stored username whose password matches |
| UsuarioController.ProyeccionSinPassword | src/main/java/com/portafolio/gestiontareas/controller/UsuarioController.java:52-76 | the user projection carries no password: users differing only in password project identically |
| UsuarioController.ProyectarUsuario | src/main/java/com/portafolio/gestiontareas/controller/UsuarioController.java:52-56 | the user object sent to clients carries the user's id, username and email; its type has no password or account flags |
| UsuarioController.RegistrarUsuario | src/main/java/com/portafolio/gestiontareas/controller/UsuarioController.java:69-81 | corrected registration endpoint: it succeeds exactly when the service registration does, that is for an unused username and email and no blank field; a failure is a bad request carrying the exception message and stores nothing; a success answers the new user's projection under a fresh id |
| UsuarioController.RegistrarLuegoLogin | src/main/java/com/portafolio/gestiontareas/controller/UsuarioController.java:69-81 | a registration with an unused username and email and no blank field succeeds, and logging in with its username and password then answers a session for exactly the registered account |
| UsuarioService.CrearUsuarioAsWritten | src/main/java/com/portafolio/gestiontareas/service/UsuarioService.java:30-42 | as written: the username and email checks come first; then a body id naming a stored user overwrites that account, and any other body registers as by the corrected CrearUsuario |
| UsuarioController.RegistrarUsuarioAsWritten | src/main/java/com/portafolio/gestiontareas/controller/UsuarioController.java:69-81 | the source's endpoint: the duplicate checks answer as in the corrected one; a body id naming a stored user then overwrites that account with the body |
| UsuarioController.RegistroAsWrittenSobrescribeCuenta | src/main/java/com/portafolio/gestiontareas/controller/UsuarioController.java:69-81 | for every store, a registration with a fresh username and email and a stored user's id succeeds, and that user's previous credentials no longer pass the check |
| UsuarioController.RegistroNoExponePassword | src/main/java/com/portafolio/gestiontareas/controller/UsuarioController.java:72-77 | the registration response does not depend on the submitted password |
| CategoriaService.ConvertirADTOInyectiva | src/main/java/com/portafolio/gestiontareas/service/CategoriaService.java:23-29 | the projection copies id, name and colour: the category can be read back from it |
| CategoriaService.ConvertirADTO | src/main/java/com/portafolio/gestiontareas/service/CategoriaService.java:23-29 | the category reads back from its transfer object: id, name and colour are all carried |
| CategoriaService.CrearCategoria | src/main/java/com/portafolio/gestiontareas/service/CategoriaService.java:31-33 | the category is stored as given: a body id naming a stored category overwrites it, any other body gets a fresh id |
| CategoriaService.ObtenerTodasCategorias | src/main/java/com/portafolio/gestiontareas/service/CategoriaService.java:42-47 | the projections of every stored category |
| CategoriaService.ObtenerTodasCategoriasPaginado | src/main/java/com/portafolio/gestiontareas/service/CategoriaService.java:36-39 | the page is exactly the window of all projected categories starting at page*size: min(size, remaining) when the offset is inside the listing, each the category at its offset |
| CategoriaService.ObtenerCategoriaDTOPorId | src/main/java/com/portafolio/gestiontareas/service/CategoriaService.java:49-57 | present iff the id is stored, then its projection |
| CategoriaService.ObtenerCategoriaPorId | src/main/java/com/portafolio/gestiontareas/service/CategoriaService.java:49-51 | present iff the id is stored, and then that stored category |
| CategoriaService.ActualizarCategoria | src/main/java/com/portafolio/gestiontareas/service/CategoriaService.java:59-67 | a missing id gives EntityNotFound("Categoría", id); otherwise name and colour are overwritten and the id kept |
| CategoriaService.EliminarCategoria | src/main/java/com/portafolio/gestiontareas/service/CategoriaService.java:69-75 | fails not-found iff the id is absent; otherwise removes the category and exactly the tasks filed under it |
| CategoriaService.EliminarCategoriaSinColgantes | src/main/java/com/portafolio/gestiontareas/entity/Categoria.java:17 | the cascade leaves no task pointing at a missing category |
| CategoriaService.EliminarCategoriaBorraTareasAjenas | src/main/java/com/portafolio/gestiontareas/entity/Categoria.java:17 | the cascade is not scoped to an owner: every user's tasks in the category are deleted |
| CategoriaService.BuscarCategoriasPorNombre | src/main/java/com/portafolio/gestiontareas/service/CategoriaService.java:78-83 | exactly the categories whose name contains the query, ignoring case |
| TareasList.TareasFiltradas | gestion-tareas-frontend/src/app/pages/tareas-list/tareas-list.component.ts:267-287 | the result is an order-preserving subsequence of the loaded tasks and holds exactly those that pass all four filters |
| TareasList.SinFiltrosDevuelveTodas | gestion-tareas-frontend/src/app/pages/tareas-list/tareas-list.component.ts:267-287 | with every filter on 'todas' and no search text the whole list comes back |
| TareasList.FiltrosEnCadena | gestion-tareas-frontend/src/app/pages/tareas-list/tareas-list.component.ts:285 | the filter is the conjunction of the four filters |
| TareasList.EstadosParticionan | gestion-tareas-frontend/src/app/pages/tareas-list/tareas-list.component.ts:271-273 | 'completadas' and 'pendientes' split the page between them |
| TareasList.EstadoDesconocidoVacio | gestion-tareas-frontend/src/app/pages/tareas-list/tareas-list.component.ts:271-273 | an estado value other than the three options matches nothing |
| TareasList.FiltroCategoriaExacto | gestion-tareas-frontend/src/app/pages/tareas-list/tareas-list.component.ts:275-276 | selecting a category keeps a task iff it is filed under exactly that category |
| TareasList.Paginas | gestion-tareas-frontend/src/app/pages/tareas-list/tareas-list.component.ts:289-303 | ascending consecutive pages within [0, totalPages-1], at most five, empty without pages; for a real current page it holds that page and min(5, totalPages) entries |
| TareasList.CambiarPagina | gestion-tareas-frontend/src/app/pages/tareas-list/tareas-list.component.ts:255-259 | a reload happens iff the page is within [0, totalPages) |
| TareasList.GetNombreCategoria | gestion-tareas-frontend/src/app/pages/tareas-list/tareas-list.component.ts:350-354 | a missing or zero id, or one not loaded, gives 'Sin categoría'; otherwise the first matching category's name |
| TareasList.GetColorCategoria | gestion-tareas-frontend/src/app/pages/tareas-list/tareas-list.component.ts:356-360 | a missing or zero id, or one not loaded, gives '#95a5a6'; otherwise the first matching category's colour |
| TareasList.NombreYColorDeLaMismaCategoria | gestion-tareas-frontend/src/app/pages/tareas-list/tareas-list.component.ts:350-360 | the name and colour shown come from the same category, or both fall back |
| Dashboard.ProcesarTareas | gestion-tareas-frontend/src/app/pages/dashboard/dashboard.component.ts:68-94 | the total is the input length; pending, completed and due-soon are the numbers of positions whose task is pending, completed, or pending with a due date in the window; pending plus completed is the total; the recent list holds min(5, total) input tasks, newest first |
| Dashboard.RecientesSonLasMasNuevas | gestion-tareas-frontend/src/app/pages/dashboard/dashboard.component.ts:85-87 | a task left out of the recent five is no newer than any task shown |
| Dashboard.ProximasIgnoraCompletadasYSinFecha | gestion-tareas-frontend/src/app/pages/dashboard/dashboard.component.ts:78-79 | for every list, removing all completed and all undated tasks leaves the due-soon counter unchanged, and a list of only such tasks counts none |
| Dashboard.PorcentajeCompletadas | gestion-tareas-frontend/src/app/pages/dashboard/dashboard.component.ts:96-99 | 0 without tasks; otherwise the nearest integer to 100 * completed / total, halves rounded up |
| Dashboard.PorcentajeEnRango | gestion-tareas-frontend/src/app/pages/dashboard/dashboard.component.ts:96-99 | the percentage lies in [0, 100]: 0 when nothing is done, 100 when everything is |

## Left out

- HTTP and Spring plumbing: annotations, status codes, JSON serialisation and the exception handlers. Outcomes are `Result` and `Respuesta` values; a propagated exception is `Respuesta.Excepcion`.
- Token signing and verification: `JwtUtil` is not part of this model, and the signer is the function parameter `issue`.
- Where `X-Usuario-Id` comes from: the client supplies the header; the model takes it as an already-resolved identity.
- The Angular services, the HTTP interceptor, the module, the routing and the UI components (login and registration pages, form handling, messages, `toggleCompletada`): these are I/O or UI.
- The client identity fallbacks (user 1 when nobody is logged in, user 1 hard-coded in the dashboard): these are not access control.
- `TestController` and `ErrorResponse`: canned strings and timestamp formatting.
- Clocks: timestamps and dates are integers, and the dashboard's three-day window is the predicate parameter `enVentana`.
- Dashboard.PorcentajeCompletadas: uses exact rational rounding, not IEEE floating point. It may differ from `Math.round` on a float exactly at a half.
- Sorting: the sort parameter is the closed set `Clave` (id, creation instant, priority by name); arbitrary property strings are not modelled. Spring's `Page` metadata (totals, page number) is not modelled. Equal sort keys keep ascending id order; the source gives no tie-break.
- SQL `LIKE` wildcards: an unescaped `%` or `_` in the search text is matched literally (plain substring search).
- Case mapping: lower-casing covers ASCII letters only, in SQL `LOWER` and in JavaScript `toLowerCase`.
- JPA mapping details: lazy loading, the `mappedBy` inconsistency on `Usuario.tareas`, and foreign-key checks. A task's owner and category are held as the referenced row's id, so `getUsuarioId()` is that field. Deleting a user who still owns tasks is not rejected.
- UsuarioRepository.Persistir: the `@Email` format check is not modelled. A blank-field failure reports the first blank field's message; Hibernate reports every violation, in no fixed order.
- UsuarioController.RegistrarUsuario: for failures other than the two duplicate checks, the message is the constraint's message or the column's name, not the framework's composite exception text.
- TareaController.ConvertirATareaDTO: the category name is read from the stored category the task refers to. The source reads it from the object attached to the task, which for a freshly created task is the request body's category object.
- Null strings are modelled as "" where the source treats them like a blank string. A null title in the client filter cannot occur, because stored titles are non-blank.
- CategoriaService.BuscarCategoriasPorNombre: a category name has no validation, and a category created without one has a SQL NULL name. The derived query compares `UPPER(NULL) LIKE ...`, which is never true, so the source never returns such a category. The model stores the name as "", which contains the empty query, so it returns that category for an empty search.
- Row order: SQL gives no order to a query without `ORDER BY` (`findAll` and the derived listings). The model fixes it as ascending id, so listings are promised as sets of rows; their order is the model's choice, not the source's.
- TareaController.CrearTarea: built on the corrected `TareaService.CrearTarea`, so it always inserts. The source's endpoint merges a body that carries a stored task id; that behaviour is TareaController.CrearTareaAsWritten.
- UsuarioController.RegistrarUsuario: built on the corrected `UsuarioService.CrearUsuario`, so it always inserts. The source's endpoint merges a body that carries a stored user id; that behaviour is UsuarioController.RegistrarUsuarioAsWritten.
- TareaRepository.SaveAsWritten: a body id that names no stored row is inserted under a fresh id. Whether the source inserts there depends on the Hibernate version, which the repository does not pin: from Hibernate 6.6, merging a detached entity with a generated id and no row throws an optimistic-locking exception instead.
- CategoriaService.CrearCategoria: the same Hibernate caveat applies. A body whose id names no stored category is inserted under a fresh id in the model; from Hibernate 6.6 the source throws instead.
- UsuarioRepository.SaveAsWritten: the same Hibernate caveat applies. A registration body whose id names no stored user is inserted under a fresh id in the model; from Hibernate 6.6 the source throws instead.
- Concurrency and races between requests belong to the storage layer.
- The remaining user and category endpoints (`UsuarioController` list, get, update and delete, `CategoriaController`): they only forward to the service operations modelled here.

## Findings

| source | as written | input that shows it | evidently intended | confidence | as-written member | corrected member |
|---|---|---|---|---|---|---|
| src/main/java/com/portafolio/gestiontareas/service/TareaService.java:46 | `crearTarea` passes the request body to `save`. For a body whose id is set, `save` merges into the stored row with that id. | User 2 posts a task whose body has id 1, where task 1 belongs to user 1. The controller sets the owner to user 2, and task 1 is overwritten and now belongs to user 2 (for every store: TareaController.CrearAsWrittenAlcanzaTareaAjena). | creation always inserts a new task under a generated id | not executed | TareaService.CrearTareaAsWrittenSeApropiaDeTareaAjena | TareaService.CrearTarea |
| src/main/java/com/portafolio/gestiontareas/service/UsuarioService.java:41 | `crearUsuario` passes the registration body to `save`, which merges a body with a stored id into that row. | A store holds user 1 "ana". A registration body has id 1, username "eva" and email "eva@x.es". Both checks pass, and account 1 now holds eva's credentials, so "ana" can no longer log in (for every store: UsuarioController.RegistroAsWrittenSobrescribeCuenta). | registration always inserts a new account | not executed | UsuarioService.CrearUsuarioAsWrittenSobrescribeCuenta | UsuarioService.CrearUsuario |

=== FILE: categoria.dfy ===
/** The category table. Categories are global labels, not scoped to a user. */
module CategoriaRepository {
  import opened Wrappers
  import opened Tabla
  import opened Categorias

  datatype Store = Store(categorias: map<Id, Categoria>, siguiente: Id)

  predicate Valid(s: Store) {
    forall k :: k in s.categorias ==> k < s.siguiente && s.categorias[k].id == Some(k)
  }

  /** `c` is the row stored under its own id. */
  predicate Almacenada(s: Store, c: Categoria) {
    c.id.Some? && c.id.value in s.categorias && s.categorias[c.id.value] == c
  }

  /** Rows satisfying `p`, ascending by id: only stored ones, and all of them. */
  function Seleccion(s: Store, p: Categoria -> bool): (r: seq<Categoria>)
    requires Valid(s)
    ensures forall i :: 0 <= i < |r| ==> Almacenada(s, r[i]) && p(r[i])
    ensures forall k :: k in s.categorias && p(s.categorias[k]) ==> s.categorias[k] in r
  {
    var ks := Claves(s.categorias, s.siguiente, p);
    var r := Filas(s.categorias, ks);
    assert forall i :: 0 <= i < |r| ==> Almacenada(s, r[i]) && p(r[i]) by {
      forall i | 0 <= i < |r|
        ensures Almacenada(s, r[i]) && p(r[i])
      {
        assert ks[i] in ks;
      }
    }
    assert forall k :: k in s.categorias && p(s.categorias[k]) ==> s.categorias[k] in r by {
      forall k | k in s.categorias && p(s.categorias[k])
        ensures s.categorias[k] in r
      {
        assert k in ks;
        var i :| 0 <= i < |ks| && ks[i] == k;
        assert r[i] == s.categorias[k];
      }
    }
    r
  }
}

/** The category service: CRUD, projection to the transfer object, name search,
    and the cascade that deletes a category's tasks with it. */
module CategoriaService {
  import opened Wrappers
  import opened Tabla
  import opened Errores
  import opened Categorias
  import opened CategoriaRepository
  import Tareas
  import TareaRepository
  import Orden
  import Text

  /** The transfer object sent to clients. */
  datatype CategoriaDTO = CategoriaDTO(id: Option<Id>, nombre: string, color: string)

  /** `convertirADTO(c)`. */
  function ConvertirADTO(c: Categoria): (d: CategoriaDTO)
    ensures DeDTO(d) == c
  {
    CategoriaDTO(c.id, c.nombre, c.color)
  }

  /** The entity a transfer object describes. */
  function DeDTO(d: CategoriaDTO): (c: Categoria)
  {
    Categoria(d.id, d.nombre, d.color)
  }

  /** The projection loses nothing: the entity can be read back from it, and two
      different categories never project to the same object. */
  lemma ConvertirADTOInyectiva(a: Categoria, b: Categoria)
    ensures DeDTO(ConvertirADTO(a)) == a
    ensures ConvertirADTO(a) == ConvertirADTO(b) ==> a == b
  {
  }

  /** Projects a listing element by element. */
  function ConvertirTodas(cs: seq<Categoria>): (ds: seq<CategoriaDTO>)
    ensures |ds| == |cs|
    ensures forall i :: 0 <= i < |cs| ==> DeDTO(ds[i]) == cs[i]
  {
    if cs == [] then [] else [ConvertirADTO(cs[0])] + ConvertirTodas(cs[1..])
  }

  /** The message-less not-found of the category operations. */
  function NoEncontrada(id: Id): Error {
    EntityNotFound("Categoría", id)
  }

  /** `crearCategoria(c)`: `save` with no validation. A body whose id names a
      stored category overwrites that row; any other body is inserted under a
      fresh id. */
  function CrearCategoria(s: Store, c: Categoria): (r: (Store, Categoria))
    requires Valid(s)
    ensures Valid(r.0) && Almacenada(r.0, r.1)
    ensures r.1.nombre == c.nombre && r.1.color == c.color
    ensures c.id.Some? && c.id.value in s.categorias ==>
      r.1 == c && r.0.categorias == s.categorias[c.id.value := c]
    ensures !(c.id.Some? && c.id.value in s.categorias) ==>
      && r.1.id.value !in s.categorias
      && r.0.categorias == s.categorias[r.1.id.value := r.1]
  {
    if c.id.Some? && c.id.value in s.categorias then
      (s.(categorias := s.categorias[c.id.value := c]), c)
    else
      var creada := c.(id := Some(s.siguiente));
      (Store(s.categorias[s.siguiente := creada], s.siguiente + 1), creada)
  }

  /** The rows satisfying `p`, projected: exactly the stored ones that satisfy it. */
  function SeleccionDTO(s: Store, p: Categoria -> bool): (r: seq<CategoriaDTO>)
    requires Valid(s)
    ensures forall i :: 0 <= i < |r| ==> Almacenada(s, DeDTO(r[i])) && p(DeDTO(r[i]))
    ensures forall k :: k in s.categorias && p(s.categorias[k]) ==> ConvertirADTO(s.categorias[k]) in r
  {
    var cs := Seleccion(s, p);
    var r := ConvertirTodas(cs);
    assert forall i :: 0 <= i < |r| ==> Almacenada(s, DeDTO(r[i])) && p(DeDTO(r[i])) by {
      forall i | 0 <= i < |r|
        ensures Almacenada(s, DeDTO(r[i])) && p(DeDTO(r[i]))
      {
        assert DeDTO(r[i]) == cs[i];
      }
    }
    assert forall k :: k in s.categorias && p(s.categorias[k]) ==> ConvertirADTO(s.categorias[k]) in r by {
      forall k | k in s.categorias && p(s.categorias[k])
        ensures ConvertirADTO(s.categorias[k]) in r
      {
        assert s.categorias[k] in cs;
        var i :| 0 <= i < |cs| && cs[i] == s.categorias[k];
        assert DeDTO(r[i]) == cs[i];
        assert r[i] == ConvertirADTO(cs[i]);
      }
    }
    r
  }

  /** `obtenerTodasCategorias()`: every category, as transfer objects, by id. */
  function ObtenerTodasCategorias(s: Store): (r: seq<CategoriaDTO>)
    requires Valid(s)
    ensures forall i :: 0 <= i < |r| ==> Almacenada(s, DeDTO(r[i]))
    ensures forall k :: k in s.categorias ==> ConvertirADTO(s.categorias[k]) in r
  {
    SeleccionDTO(s, (c: Categoria) => true)
  }

  /** `obtenerTodasCategorias(pageable)`: one page of the listing. */
  function ObtenerTodasCategoriasPaginado(s: Store, page: nat, size: nat): (r: seq<CategoriaDTO>)
    requires Valid(s) && size > 0
    ensures |r| <= size
    ensures forall i :: 0 <= i < |r| ==> Almacenada(s, DeDTO(r[i]))
    ensures Orden.EsPagina(r, ObtenerTodasCategorias(s), page, size)
  {
    Orden.PaginaEsPagina(ObtenerTodasCategorias(s), page, size);
    Orden.Pagina(ObtenerTodasCategorias(s), page, size)
  }

  /** `obtenerCategoriaPorId(id)`. */
  function ObtenerCategoriaPorId(s: Store, id: Id): (r: Option<Categoria>)
    ensures r.Some? <==> id in s.categorias
    ensures r.Some? ==> r.value == s.categorias[id]
  {
    if id in s.categorias then Some(s.categorias[id]) else None
  }

  /** `obtenerCategoriaDTOPorId(id)`. */
  function ObtenerCategoriaDTOPorId(s: Store, id: Id): (r: Option<CategoriaDTO>)
    ensures r.Some? <==> id in s.categorias
    ensures r.Some? ==> DeDTO(r.value) == s.categorias[id]
  {
    match ObtenerCategoriaPorId(s, id)
    case None => None
    case Some(c) => Some(ConvertirADTO(c))
  }

  /** `actualizarCategoria(id, cambios)`: overwrites name and colour, keeps the id. */
  function ActualizarCategoria(s: Store, id: Id, cambios: Categoria): (r: Result<(Store, Categoria), Error>)
    requires Valid(s)
    ensures id !in s.categorias <==> r.Failure?
    ensures r.Failure? ==> r.error == NoEncontrada(id)
    ensures r.Success? ==>
      var (s2, c) := r.value;
      && Valid(s2)
      && c == Categoria(Some(id), cambios.nombre, cambios.color)
      && s2.categorias == s.categorias[id := c]
  {
    if id !in s.categorias then Failure(NoEncontrada(id))
    else
      var c := s.categorias[id].(nombre := cambios.nombre, color := cambios.color);
      Success((s.(categorias := s.categorias[id := c]), c))
  }

  /** The tasks that survive the deletion of category `id`. */
  function SinCategoria(ts: TareaRepository.Store, id: Id): (r: TareaRepository.Store)
    requires TareaRepository.Valid(ts)
    ensures TareaRepository.Valid(r)
    ensures forall k :: k in r.tareas <==> k in ts.tareas && ts.tareas[k].categoria != Some(id)
    ensures forall k :: k in r.tareas ==> r.tareas[k] == ts.tareas[k]
  {
    ts.(tareas := map k | k in ts.tareas && ts.tareas[k].categoria != Some(id) :: ts.tareas[k])
  }

  /** `eliminarCategoria(id)`: removes the category and, through the cascade on
      its task collection, every task filed under it. */
  function EliminarCategoria(s: Store, ts: TareaRepository.Store, id: Id): (r: Result<(Store, TareaRepository.Store), Error>)
    requires Valid(s) && TareaRepository.Valid(ts)
    ensures id !in s.categorias <==> r.Failure?
    ensures r.Failure? ==> r.error == NoEncontrada(id)
    ensures r.Success? ==>
      var (s2, ts2) := r.value;
      && Valid(s2) && TareaRepository.Valid(ts2)
      && s2.categorias == s.categorias - {id}
      && (forall k :: k in ts2.tareas <==> k in ts.tareas && ts.tareas[k].categoria != Some(id))
      && (forall k :: k in ts2.tareas ==> ts2.tareas[k] == ts.tareas[k])
  {
    if id !in s.categorias then Failure(NoEncontrada(id))
    else Success((s.(categorias := s.categorias - {id}), SinCategoria(ts, id)))
  }

  /** Every task's category is a stored category. */
  predicate SinReferenciasColgantes(s: Store, ts: TareaRepository.Store) {
    forall k :: k in ts.tareas && ts.tareas[k].categoria.Some? ==>
      ts.tareas[k].categoria.value in s.categorias
  }

  /** The cascade never leaves a task pointing at the deleted category. */
  lemma EliminarCategoriaSinColgantes(s: Store, ts: TareaRepository.Store, id: Id)
    requires Valid(s) && TareaRepository.Valid(ts)
    requires SinReferenciasColgantes(s, ts)
    requires EliminarCategoria(s, ts, id).Success?
    ensures SinReferenciasColgantes(EliminarCategoria(s, ts, id).value.0, EliminarCategoria(s, ts, id).value.1)
  {
  }

  /** The cascade is not scoped to an owner: deleting a category deletes every
      user's tasks filed under it. */
  lemma EliminarCategoriaBorraTareasAjenas(s: Store, ts: TareaRepository.Store, id: Id, k: Id)
    requires Valid(s) && TareaRepository.Valid(ts) && id in s.categorias
    requires k in ts.tareas && ts.tareas[k].categoria == Some(id)
    ensures k !in EliminarCategoria(s, ts, id).value.1.tareas
    ensures forall u :: TareaRepository.FindByIdAndUsuarioId(EliminarCategoria(s, ts, id).value.1, k, u).None?
  {
  }

  /** `buscarCategoriasPorNombre(q)`: the categories whose name contains `q`,
      ignoring case, as transfer objects. */
  function BuscarCategoriasPorNombre(s: Store, q: string): (r: seq<CategoriaDTO>)
    requires Valid(s)
    ensures forall i :: 0 <= i < |r| ==>
      Almacenada(s, DeDTO(r[i])) && Text.ContainsIgnoreCase(DeDTO(r[i]).nombre, q)
    ensures forall k :: k in s.categorias && Text.ContainsIgnoreCase(s.categorias[k].nombre, q) ==>
      ConvertirADTO(s.categorias[k]) in r
  {
    SeleccionDTO(s, (c: Categoria) => Text.ContainsIgnoreCase(c.nombre, q))
  }
}

=== FILE: dashboard.dfy ===
/** The dashboard's pure computations over the tasks it loaded: the counters, the
    five most recently created tasks and the completion percentage. */
module Dashboard {
  import opened Tareas
  import opened Listas
  import Orden
  import TareaController

  type TareaDTO = TareaController.TareaDTO

  /** What `procesarTareas` leaves on the component. */
  datatype Panel = Panel(
    totalTareas: nat,
    tareasPendientes: nat,
    tareasCompletadas: nat,
    tareasProximas: nat,
    tareasRecientes: seq<TareaDTO>)

  function Pendiente(): TareaDTO -> bool {
    (t: TareaDTO) => !t.completada
  }

  function Completada(): TareaDTO -> bool {
    (t: TareaDTO) => t.completada
  }

  /** A pending task whose due date passes `enVentana`, the check "between now
      and three days from now" made against the clock. */
  function Proxima(enVentana: Fecha -> bool): TareaDTO -> bool {
    (t: TareaDTO) => !t.completada && t.fechaVencimiento.Some? && enVentana(t.fechaVencimiento.value)
  }

  /** The sort key putting the newest creation instant first. */
  function MasReciente(t: TareaDTO): int {
    -t.fechaCreacion
  }

  /** The tasks by creation instant, newest first (a stable sort, like the
      browser's `Array.prototype.sort`). */
  function PorRecientes(tareas: seq<TareaDTO>): (r: seq<TareaDTO>)
    ensures multiset(r) == multiset(tareas) && |r| == |tareas|
    ensures forall i, j :: 0 <= i < j < |r| ==> r[i].fechaCreacion >= r[j].fechaCreacion
  {
    var r := Orden.OrdenarPor(tareas, MasReciente);
    assert forall i, j :: 0 <= i < j < |r| ==> MasReciente(r[i]) <= MasReciente(r[j]);
    r
  }

  /** The five most recently created tasks (fewer when there are fewer), newest
      first. */
  function Recientes(tareas: seq<TareaDTO>): (r: seq<TareaDTO>)
    ensures |r| == Orden.Min(5, |tareas|)
    ensures multiset(r) <= multiset(tareas)
    ensures forall i, j :: 0 <= i < j < |r| ==> r[i].fechaCreacion >= r[j].fechaCreacion
  {
    var ordenadas := PorRecientes(tareas);
    var recientes := ordenadas[..Orden.Min(5, |ordenadas|)];
    assert ordenadas == recientes + ordenadas[|recientes|..];
    assert multiset(ordenadas) == multiset(recientes) + multiset(ordenadas[|recientes|..]);
    recientes
  }

  /** The pending counter counts the positions holding a pending task. */
  lemma CuentaPendientes(tareas: seq<TareaDTO>)
    ensures |Filtrar(tareas, Pendiente())| == |set i | 0 <= i < |tareas| && !tareas[i].completada|
  {
    FiltrarCuenta(tareas, Pendiente());
    assert Posiciones(tareas, Pendiente()) == (set i | 0 <= i < |tareas| && !tareas[i].completada);
  }

  /** The completed counter counts the positions holding a completed task. */
  lemma CuentaCompletadas(tareas: seq<TareaDTO>)
    ensures |Filtrar(tareas, Completada())| == |set i | 0 <= i < |tareas| && tareas[i].completada|
  {
    FiltrarCuenta(tareas, Completada());
    assert Posiciones(tareas, Completada()) == (set i | 0 <= i < |tareas| && tareas[i].completada);
  }

  /** The due-soon counter counts the positions holding a pending task whose due
      date lies in the window. */
  lemma CuentaProximas(tareas: seq<TareaDTO>, enVentana: Fecha -> bool)
    ensures |Filtrar(tareas, Proxima(enVentana))| ==
      |set i | 0 <= i < |tareas| && !tareas[i].completada
               && tareas[i].fechaVencimiento.Some? && enVentana(tareas[i].fechaVencimiento.value)|
  {
    FiltrarCuenta(tareas, Proxima(enVentana));
    assert Posiciones(tareas, Proxima(enVentana)) ==
      (set i | 0 <= i < |tareas| && !tareas[i].completada
               && tareas[i].fechaVencimiento.Some? && enVentana(tareas[i].fechaVencimiento.value));
  }

  /** `procesarTareas(tareas)`: each counter is the number of positions of the
      input whose task passes that counter's test. */
  function ProcesarTareas(tareas: seq<TareaDTO>, enVentana: Fecha -> bool): (p: Panel)
    ensures p.totalTareas == |tareas|
    ensures p.tareasPendientes == |set i | 0 <= i < |tareas| && !tareas[i].completada|
    ensures p.tareasCompletadas == |set i | 0 <= i < |tareas| && tareas[i].completada|
    ensures p.tareasProximas == |set i | 0 <= i < |tareas| && !tareas[i].completada
                                   && tareas[i].fechaVencimiento.Some? && enVentana(tareas[i].fechaVencimiento.value)|
    ensures p.tareasPendientes + p.tareasCompletadas == p.totalTareas
    ensures p.tareasProximas <= p.tareasPendientes
    ensures |p.tareasRecientes| == Orden.Min(5, |tareas|)
    ensures multiset(p.tareasRecientes) <= multiset(tareas)
    ensures forall i, j :: 0 <= i < j < |p.tareasRecientes| ==>
      p.tareasRecientes[i].fechaCreacion >= p.tareasRecientes[j].fechaCreacion
  {
    FiltrarComplemento(tareas, Pendiente(), Completada());
    FiltrarMonotono(tareas, Proxima(enVentana), Pendiente());
    CuentaPendientes(tareas);
    CuentaCompletadas(tareas);
    CuentaProximas(tareas, enVentana);
    Panel(|tareas|, |Filtrar(tareas, Pendiente())|, |Filtrar(tareas, Completada())|,
          |Filtrar(tareas, Proxima(enVentana))|, Recientes(tareas))
  }

  /** A task left out of the recent five is no newer than any task shown. */
  lemma RecientesSonLasMasNuevas(tareas: seq<TareaDTO>, enVentana: Fecha -> bool)
    ensures var recientes := ProcesarTareas(tareas, enVentana).tareasRecientes;
      forall t, i :: t in tareas && t !in recientes && 0 <= i < |recientes| ==>
        t.fechaCreacion <= recientes[i].fechaCreacion
  {
    assert ProcesarTareas(tareas, enVentana).tareasRecientes == Recientes(tareas);
    RecientesDesplazanMasAntiguas(tareas);
  }

  /** The recent five displace only tasks that are no newer than any of them. */
  lemma RecientesDesplazanMasAntiguas(tareas: seq<TareaDTO>)
    ensures var recientes := Recientes(tareas);
      forall t, i :: t in tareas && t !in recientes && 0 <= i < |recientes| ==>
        t.fechaCreacion <= recientes[i].fechaCreacion
  {
    var ordenadas := PorRecientes(tareas);
    var k := Orden.Min(5, |ordenadas|);
    var recientes := Recientes(tareas);
    assert recientes == ordenadas[..k];
    forall t | t in tareas && t !in recientes
      ensures forall i :: 0 <= i < |recientes| ==> t.fechaCreacion <= recientes[i].fechaCreacion
    {
      assert multiset(ordenadas[..k])[t] == 0;
      assert multiset(ordenadas)[t] == multiset(tareas)[t] > 0;
      PrefijoDeOrdenadas(ordenadas, k, t);
    }
  }

  /** In a newest-first list, an element that occurs more often than in the
      first k entries is no newer than any of those entries. */
  lemma PrefijoDeOrdenadas(ordenadas: seq<TareaDTO>, k: nat, t: TareaDTO)
    requires k <= |ordenadas|
    requires forall i, j :: 0 <= i < j < |ordenadas| ==> ordenadas[i].fechaCreacion >= ordenadas[j].fechaCreacion
    requires multiset(ordenadas[..k])[t] < multiset(ordenadas)[t]
    ensures forall i :: 0 <= i < k ==> t.fechaCreacion <= ordenadas[i].fechaCreacion
  {
    var resto := ordenadas[k..];
    assert ordenadas == ordenadas[..k] + resto;
    assert multiset(ordenadas) == multiset(ordenadas[..k]) + multiset(resto);
    assert t in multiset(resto);
    var j :| 0 <= j < |resto| && resto[j] == t;
    assert ordenadas[k + j] == t;
  }

  /** A task that is pending and has a due date. */
  function PendienteConFecha(): TareaDTO -> bool {
    (t: TareaDTO) => !t.completada && t.fechaVencimiento.Some?
  }

  /** Completed tasks and undated tasks never count as due soon: removing them all
      from any list leaves the due-soon counter as it was, and a list made only of
      them has no task due soon, whatever the window. */
  lemma ProximasIgnoraCompletadasYSinFecha(tareas: seq<TareaDTO>, enVentana: Fecha -> bool)
    ensures ProcesarTareas(Filtrar(tareas, PendienteConFecha()), enVentana).tareasProximas
         == ProcesarTareas(tareas, enVentana).tareasProximas
    ensures (forall i :: 0 <= i < |tareas| ==> tareas[i].completada || tareas[i].fechaVencimiento.None?) ==>
      ProcesarTareas(tareas, enVentana).tareasProximas == 0
  {
    FiltrarConjuncion(tareas, PendienteConFecha(), Proxima(enVentana), Proxima(enVentana));
    if forall i :: 0 <= i < |tareas| ==> tareas[i].completada || tareas[i].fechaVencimiento.None? {
      FiltrarNinguno(tareas, Proxima(enVentana));
    }
  }

  /** `getPorcentajeCompletadas()`: 0 without tasks, otherwise the completed share
      as a percentage rounded half up (`Math.round`). */
  function PorcentajeCompletadas(p: Panel): (r: int)
    ensures p.totalTareas == 0 ==> r == 0
    ensures p.totalTareas > 0 ==>
      2 * p.totalTareas * r - p.totalTareas <= 200 * p.tareasCompletadas < 2 * p.totalTareas * r + p.totalTareas
  {
    if p.totalTareas == 0 then 0
    else (200 * p.tareasCompletadas + p.totalTareas) / (2 * p.totalTareas)
  }

  /** The percentage lies between 0 and 100, is 100 when everything is done and 0
      when nothing is. */
  lemma PorcentajeEnRango(tareas: seq<TareaDTO>, enVentana: Fecha -> bool)
    ensures var p := ProcesarTareas(tareas, enVentana);
      && 0 <= PorcentajeCompletadas(p) <= 100
      && (p.tareasCompletadas == 0 ==> PorcentajeCompletadas(p) == 0)
      && (p.totalTareas > 0 && p.tareasCompletadas == p.totalTareas ==> PorcentajeCompletadas(p) == 100)
  {
    var p := ProcesarTareas(tareas, enVentana);
    if p.totalTareas > 0 {
      RedondeoAcotado(p.tareasCompletadas, p.totalTareas, PorcentajeCompletadas(p));
    }
  }

  /** Arithmetic behind the percentage bounds: the nearest integer to 100 * c / t
      for 0 <= c <= t lies in [0, 100], and hits the ends exactly at c = 0 and c = t. */
  lemma RedondeoAcotado(c: int, t: int, r: int)
    requires 0 <= c <= t && t > 0
    requires 2 * t * r - t <= 200 * c < 2 * t * r + t
    ensures 0 <= r <= 100
    ensures c == 0 ==> r == 0
    ensures c == t ==> r == 100
  {
    var tr := t * r;
    assert 2 * tr - t <= 200 * c < 2 * tr + t;
    if r > 100 {
      MultiplicarMonotono(t, 101, r);
    }
    if r < 0 {
      MultiplicarMonotono(t, r, -1);
    }
    if c == 0 && r >= 1 {
      MultiplicarMonotono(t, 1, r);
    }
    if c == t && r <= 99 {
      MultiplicarMonotono(t, r, 99);
    }
  }

  lemma MultiplicarMonotono(t: int, a: int, b: int)
    requires t > 0 && a <= b
    ensures t * a <= t * b
  {
  }
}

=== FILE: entidades.dfy ===
/** The task entity: its fields, defaults and the closed priority enumeration. */
module Tareas {
  import opened Wrappers
  import opened Tabla
  import Text

  /** A `LocalDateTime`, abstracted to an integer instant. */
  type Instante = int

  /** A `LocalDate` (no time of day), abstracted to a day number. */
  type Fecha = int

  /** The three priorities, stored by name. */
  datatype Prioridad = BAJA | MEDIA | ALTA

  /** The name under which a priority is stored and sent (`EnumType.STRING`). */
  function NombrePrioridad(p: Prioridad): (n: string)
  {
    match p
    case BAJA => "BAJA"
    case MEDIA => "MEDIA"
    case ALTA => "ALTA"
  }

  /** `Prioridad.valueOf(n)`: the priority with that exact name, if any. */
  function PrioridadDeNombre(n: string): (p: Option<Prioridad>)
  {
    if n == "BAJA" then Some(BAJA)
    else if n == "MEDIA" then Some(MEDIA)
    else if n == "ALTA" then Some(ALTA)
    else None
  }

  /** Names and priorities correspond one to one: parsing a priority's name gives
      it back, and a name that parses is that priority's name. */
  lemma {:induction false} NombrePrioridadBiyectiva(p: Prioridad, n: string)
    ensures PrioridadDeNombre(NombrePrioridad(p)) == Some(p)
    ensures PrioridadDeNombre(n) == Some(p) ==> n == NombrePrioridad(p)
  {
    match p
    case BAJA =>
      assert "MEDIA" != "BAJA" && "ALTA" != "BAJA" by { assert "MEDIA"[0] != 'B' && "ALTA"[0] != 'B'; }
    case MEDIA =>
      assert "BAJA" != "MEDIA" by { assert "BAJA"[0] != 'M'; }
      assert "ALTA" != "MEDIA" by { assert "ALTA"[0] != 'M'; }
    case ALTA =>
      assert "BAJA" != "ALTA" && "MEDIA" != "ALTA" by { assert "BAJA"[0] != 'A' && "MEDIA"[0] != 'A'; }
  }

  /** A task. The owner and the category are held as the referenced row's id
      (`getUsuarioId()` is therefore the `usuario` field itself); `None` is Java's null. */
  datatype Tarea = Tarea(
    id: Option<Id>,
    titulo: string,
    descripcion: Option<string>,
    completada: bool,
    fechaCreacion: Instante,
    fechaVencimiento: Option<Fecha>,
    prioridad: Prioridad,
    usuario: Option<Id>,
    categoria: Option<Id>)

  /** `new Tarea()` run at instant `ahora`. */
  function NuevaTarea(ahora: Instante): (t: Tarea)
    ensures !t.completada
    ensures t.prioridad == MEDIA
    ensures t.fechaCreacion == ahora
    ensures t.id.None? && t.usuario.None? && t.categoria.None?
    ensures t.descripcion.None? && t.fechaVencimiento.None?
    ensures Text.IsBlank(t.titulo)
  {
    Tarea(None, "", None, false, ahora, None, MEDIA, None, None)
  }

  /** `@NotBlank` on the title. */
  predicate TituloValido(t: Tarea) {
    !Text.IsBlank(t.titulo)
  }

  /** The owner-scoping predicate of every task query: `t.usuario.id = :usuarioId`. */
  predicate DeUsuario(t: Tarea, u: Id) {
    t.usuario == Some(u)
  }
}

/** The category entity: a global label with a display colour. */
module Categorias {
  import opened Wrappers
  import opened Tabla

  /** A category; a null name or colour is modelled as "". */
  datatype Categoria = Categoria(id: Option<Id>, nombre: string, color: string)
}

/** The user entity: login name, email, password and the account flags. */
module Usuarios {
  import opened Wrappers
  import opened Tabla
  import Text

  /** A user; a null string field is modelled as "" (it fails `@NotBlank` the same way). */
  datatype Usuario = Usuario(
    id: Option<Id>,
    username: string,
    email: string,
    password: string,
    enabled: bool,
    fechaCreacion: int)

  /** `new Usuario()` run at instant `ahora`. */
  function NuevoUsuario(ahora: int): (u: Usuario)
    ensures u.enabled && u.fechaCreacion == ahora && u.id.None?
    ensures !CamposValidos(u)
  {
    Usuario(None, "", "", "", true, ahora)
  }

  /** `new Usuario(username, email, password)` run at instant `ahora`: the
      no-argument constructor, then the three credentials. */
  function NuevoUsuarioCon(username: string, email: string, password: string, ahora: int): (u: Usuario)
    ensures u.username == username && u.email == email && u.password == password
    ensures u.enabled && u.fechaCreacion == ahora && u.id.None?
  {
    NuevoUsuario(ahora).(username := username, email := email, password := password)
  }

  /** The three `@NotBlank` constraints. */
  predicate CamposValidos(u: Usuario) {
    !Text.IsBlank(u.username) && !Text.IsBlank(u.email) && !Text.IsBlank(u.password)
  }

  /** The message of the first violated `@NotBlank`, in field order. */
  function MensajeCampos(u: Usuario): (m: string)
    requires !CamposValidos(u)
  {
    if Text.IsBlank(u.username) then "El username es obligatorio"
    else if Text.IsBlank(u.email) then "El email es obligatorio"
    else "La contraseña es obligatoria"
  }
}

=== FILE: errores.dfy ===
/** The exceptions the services throw, as values. */
module Errores {
  import opened Tabla

  datatype Error =
      /** `EntityNotFoundException(entidad, id)`: a missing row, or for tasks a row owned by someone else. */
    | EntityNotFound(entidad: string, id: Id)
      /** `IllegalArgumentException(mensaje)`, also thrown by `PageRequest.of` for a bad page or size. */
    | IllegalArgument(mensaje: string)
      /** `RuntimeException(mensaje)` thrown by the user service on a duplicate username or email. */
    | Runtime(mensaje: string)
      /** Bean validation rejecting an entity at save time; carries the constraint's message. */
    | ConstraintViolation(mensaje: string)
      /** The database rejecting a duplicate value in a unique column. */
    | DataIntegrityViolation(columna: string)
}

/** The outcome of a controller handler, as the client sees it. */
module Respuestas {
  import opened Errores

  datatype Respuesta<+T> =
      /** 200 with a body. */
    | Ok(cuerpo: T)
      /** 400 with the given body ("" for an empty one). */
    | PeticionIncorrecta(texto: string)
      /** The handler let a service exception propagate; the status is decided by
          exception handlers outside this model. */
    | Excepcion(error: Error)

  /** The JSON body `{"error": "<mensaje>"}` the user endpoints answer with. */
  function CuerpoError(mensaje: string): (b: string)
    ensures |b| == |mensaje| + 13
    ensures b[11..11 + |mensaje|] == mensaje
  {
    "{\"error\": \"" + mensaje + "\"}"
  }
}

=== FILE: listas.dfy ===
/** Order-preserving filtering of sequences, as `Array.prototype.filter` does it. */
module Listas {

  /** The elements of `s` satisfying `p`, in their order in `s`. */
  function Filtrar<T>(s: seq<T>, p: T -> bool): (r: seq<T>)
    ensures |r| <= |s|
    ensures forall i :: 0 <= i < |r| ==> p(r[i]) && r[i] in s
    ensures forall i :: 0 <= i < |s| && p(s[i]) ==> s[i] in r
  {
    if s == [] then []
    else
      var resto := Filtrar(s[1..], p);
      assert forall i :: 0 <= i < |resto| ==> resto[i] in s by {
        forall i | 0 <= i < |resto|
          ensures resto[i] in s
        {
          assert resto[i] in s[1..];
        }
      }
      assert forall i :: 1 <= i < |s| && p(s[i]) ==> s[i] in resto by {
        forall i | 1 <= i < |s| && p(s[i])
          ensures s[i] in resto
        {
          assert s[1..][i - 1] == s[i];
        }
      }
      if p(s[0]) then [s[0]] + resto else resto
  }

  /** `r` is obtained from `s` by deleting elements, keeping the order of the rest. */
  predicate EsSubsecuencia<T(==)>(r: seq<T>, s: seq<T>)
    decreases |s|
  {
    if r == [] then true
    else if s == [] then false
    else if r[0] == s[0] then EsSubsecuencia(r[1..], s[1..])
    else EsSubsecuencia(r, s[1..])
  }

  /** Filtering keeps the surviving elements in their original order. */
  lemma {:induction false} FiltrarEsSubsecuencia<T>(s: seq<T>, p: T -> bool)
    ensures EsSubsecuencia(Filtrar(s, p), s)
  {
    if s != [] {
      FiltrarEsSubsecuencia(s[1..], p);
      if !p(s[0]) {
        SubsecuenciaSaltando(Filtrar(s[1..], p), s);
      }
    }
  }

  /** A subsequence of the tail is a subsequence of the whole. */
  lemma {:induction false} SubsecuenciaSaltando<T>(r: seq<T>, s: seq<T>)
    requires s != [] && EsSubsecuencia(r, s[1..])
    ensures EsSubsecuencia(r, s)
    decreases |s|, 0
  {
    if r != [] && r[0] == s[0] {
      SubsecuenciaSinPrimero(r, s[1..]);
    }
  }

  /** Dropping the first element of a subsequence leaves a subsequence. */
  lemma {:induction false} SubsecuenciaSinPrimero<T>(r: seq<T>, t: seq<T>)
    requires r != [] && EsSubsecuencia(r, t)
    ensures EsSubsecuencia(r[1..], t)
    decreases |t|, 1
  {
    if r[0] == t[0] {
      SubsecuenciaSaltando(r[1..], t);
    } else {
      SubsecuenciaSinPrimero(r, t[1..]);
      SubsecuenciaSaltando(r[1..], t);
    }
  }

  /** A predicate every element satisfies filters nothing out. */
  lemma {:induction false} FiltrarTodos<T>(s: seq<T>, p: T -> bool)
    requires forall i :: 0 <= i < |s| ==> p(s[i])
    ensures Filtrar(s, p) == s
  {
    if s != [] {
      FiltrarTodos(s[1..], p);
    }
  }

  /** Filtering by two predicates in a row is filtering by their conjunction. */
  lemma {:induction false} FiltrarConjuncion<T>(s: seq<T>, p: T -> bool, q: T -> bool, pq: T -> bool)
    requires forall x :: pq(x) == (p(x) && q(x))
    ensures Filtrar(Filtrar(s, p), q) == Filtrar(s, pq)
  {
    if s != [] {
      FiltrarConjuncion(s[1..], p, q, pq);
    }
  }

  /** Every element passes exactly one of a predicate and its negation. */
  lemma {:induction false} FiltrarComplemento<T>(s: seq<T>, p: T -> bool, q: T -> bool)
    requires forall x :: q(x) == !p(x)
    ensures |Filtrar(s, p)| + |Filtrar(s, q)| == |s|
  {
    if s != [] {
      FiltrarComplemento(s[1..], p, q);
    }
  }

  /** A predicate no element satisfies filters everything out. */
  lemma {:induction false} FiltrarNinguno<T>(s: seq<T>, p: T -> bool)
    requires forall i :: 0 <= i < |s| ==> !p(s[i])
    ensures Filtrar(s, p) == []
  {
    if s != [] {
      FiltrarNinguno(s[1..], p);
    }
  }

  /** Filtering by a weaker predicate keeps at least as many elements. */
  lemma {:induction false} FiltrarMonotono<T>(s: seq<T>, p: T -> bool, q: T -> bool)
    requires forall x :: p(x) ==> q(x)
    ensures |Filtrar(s, p)| <= |Filtrar(s, q)|
  {
    if s != [] {
      FiltrarMonotono(s[1..], p, q);
    }
  }

  /** Filtering distributes over concatenation. */
  lemma {:induction false} FiltrarConcatenar<T>(a: seq<T>, b: seq<T>, p: T -> bool)
    ensures Filtrar(a + b, p) == Filtrar(a, p) + Filtrar(b, p)
  {
    if a == [] {
      assert a + b == b;
    } else {
      assert (a + b)[1..] == a[1..] + b;
      FiltrarConcatenar(a[1..], b, p);
    }
  }

  /** The filtered prefix of length n is as long as the set of positions below n
      whose element satisfies `p`. */
  lemma {:induction false} FiltrarCuentaHasta<T>(s: seq<T>, p: T -> bool, n: nat)
    requires n <= |s|
    ensures |Filtrar(s[..n], p)| == |set i | 0 <= i < n && p(s[i])|
  {
    var hasta := set i | 0 <= i < n && p(s[i]);
    if n == 0 {
      assert hasta == {};
    } else {
      FiltrarCuentaHasta(s, p, n - 1);
      assert s[..n] == s[..n - 1] + [s[n - 1]];
      FiltrarConcatenar(s[..n - 1], [s[n - 1]], p);
      assert [s[n - 1]][1..] == [];
      PosicionesHastaSiguiente(s, p, n);
    }
  }

  /** The positions below `n` satisfying `p` are those below `n - 1`, plus `n - 1`
      when its element satisfies `p`. */
  lemma PosicionesHastaSiguiente<T>(s: seq<T>, p: T -> bool, n: nat)
    requires 0 < n <= |s|
    ensures |set i | 0 <= i < n && p(s[i])|
      == |set i | 0 <= i < n - 1 && p(s[i])| + (if p(s[n - 1]) then 1 else 0)
  {
    var hasta := set i | 0 <= i < n && p(s[i]);
    var antes := set i | 0 <= i < n - 1 && p(s[i]);
    if p(s[n - 1]) {
      assert hasta == antes + {n - 1};
    } else {
      assert hasta == antes;
    }
  }

  /** The positions of `s` whose element satisfies `p`. */
  ghost function Posiciones<T>(s: seq<T>, p: T -> bool): set<int> {
    set i | 0 <= i < |s| && p(s[i])
  }

  /** A filter keeps as many elements as there are positions satisfying `p`: the
      length of `Filtrar` is an independent count. */
  lemma FiltrarCuenta<T>(s: seq<T>, p: T -> bool)
    ensures |Filtrar(s, p)| == |Posiciones(s, p)|
  {
    FiltrarCuentaHasta(s, p, |s|);
    assert s[..|s|] == s;
  }
}

=== FILE: tabla.dfy ===
/** A database table keyed by generated identifiers: rows live in a map from id to
    record. SQL leaves the row order of a query without ORDER BY unspecified; in this
    model such a query returns the matching rows in ascending id order. */
module Tabla {

  /** A primary key generated by the database (`GenerationType.IDENTITY`). */
  type Id = nat

  /** Strictly increasing keys. */
  predicate Ascendente(ks: seq<Id>) {
    forall i, j :: 0 <= i < j < |ks| ==> ks[i] < ks[j]
  }

  /** The keys below `n` whose row satisfies `p`, in ascending order. */
  function Claves<T>(m: map<Id, T>, n: nat, p: T -> bool): (ks: seq<Id>)
    ensures Ascendente(ks)
    ensures forall k :: k in ks <==> k < n && k in m && p(m[k])
  {
    if n == 0 then []
    else
      var previas := Claves(m, n - 1, p);
      assert forall i :: 0 <= i < |previas| ==> previas[i] < n - 1 by {
        forall i | 0 <= i < |previas|
          ensures previas[i] < n - 1
        {
          assert previas[i] in previas;
        }
      }
      previas + (if n - 1 in m && p(m[n - 1]) then [n - 1] else [])
  }

  /** The rows stored under the given keys, in the keys' order. */
  function Filas<T>(m: map<Id, T>, ks: seq<Id>): (r: seq<T>)
    requires forall k :: k in ks ==> k in m
    ensures |r| == |ks|
    ensures forall i :: 0 <= i < |ks| ==> r[i] == m[ks[i]]
  {
    if ks == [] then [] else [m[ks[0]]] + Filas(m, ks[1..])
  }

  /** `SELECT * WHERE p` over a table whose keys all lie below `n`. */
  function Seleccionar<T>(m: map<Id, T>, n: nat, p: T -> bool): (r: seq<T>)
  {
    Filas(m, Claves(m, n, p))
  }

  /** `SELECT COUNT(*) WHERE p`: the number of rows satisfying `p`. */
  function Contar<T>(m: map<Id, T>, p: T -> bool): (c: nat)
  {
    |set k | k in m && p(m[k])|
  }

  /** Counting the rows agrees with the length of the listing, when every key
      lies below `n`. */
  lemma ContarEsLongitud<T>(m: map<Id, T>, n: nat, p: T -> bool)
    requires forall k :: k in m ==> k < n
    ensures Contar(m, p) == |Claves(m, n, p)|
  {
    ContarHasta(m, n, p);
    assert (set k | k in m && k < n && p(m[k])) == (set k | k in m && p(m[k]));
  }

  /** The rows below `j` satisfying `p` are as many as the keys listed below `j`. */
  lemma {:induction false} ContarHasta<T>(m: map<Id, T>, j: nat, p: T -> bool)
    ensures |set k | k in m && k < j && p(m[k])| == |Claves(m, j, p)|
  {
    if j > 0 {
      ContarHasta(m, j - 1, p);
      DebajoDe(m, j, p);
      ClavesSiguiente(m, j, p);
    } else {
      assert (set k | k in m && k < j && p(m[k])) == {};
    }
  }

  /** Scanning one more key adds one entry exactly when that key's row matches. */
  lemma ClavesSiguiente<T>(m: map<Id, T>, j: nat, p: T -> bool)
    requires j > 0
    ensures |Claves(m, j, p)| == |Claves(m, j - 1, p)| + (if j - 1 in m && p(m[j - 1]) then 1 else 0)
  {
  }

  /** The matching keys below `j` are those below `j - 1`, plus `j - 1` when it matches. */
  lemma DebajoDe<T>(m: map<Id, T>, j: nat, p: T -> bool)
    requires j > 0
    ensures |set k | k in m && k < j && p(m[k])|
      == |set k | k in m && k < j - 1 && p(m[k])| + (if j - 1 in m && p(m[j - 1]) then 1 else 0)
  {
    var ahora := set k | k in m && k < j && p(m[k]);
    var antes := set k | k in m && k < j - 1 && p(m[k]);
    if j - 1 in m && p(m[j - 1]) {
      var ultima: Id := j - 1;
      assert ahora == antes + {ultima};
      assert ultima !in antes;
    } else {
      assert ahora == antes;
    }
  }

  /** A filter that splits into two disjoint filters splits its listing's length. */
  lemma {:induction false} ClavesParticion<T>(m: map<Id, T>, n: nat, p: T -> bool, a: T -> bool, b: T -> bool)
    requires forall x :: p(x) <==> a(x) || b(x)
    requires forall x :: !(a(x) && b(x))
    ensures |Claves(m, n, p)| == |Claves(m, n, a)| + |Claves(m, n, b)|
  {
    if n > 0 {
      ClavesParticion(m, n - 1, p, a, b);
    }
  }
}

/** Sorting and page slicing of query results. */
module Orden {

  /** `s` is in non-decreasing order of `key`. */
  predicate Ordenada<T>(s: seq<T>, key: T -> int) {
    forall i, j :: 0 <= i < j < |s| ==> key(s[i]) <= key(s[j])
  }

  /** No element occurs twice. */
  predicate SinRepetidos<T(==)>(s: seq<T>) {
    forall i, j :: 0 <= i < j < |s| ==> s[i] != s[j]
  }

  /** Inserts `x` before the first element whose key is not smaller. */
  function Insertar<T>(x: T, s: seq<T>, key: T -> int): (r: seq<T>)
    requires Ordenada(s, key)
    ensures Ordenada(r, key)
    ensures multiset(r) == multiset(s) + multiset{x}
    ensures |r| == |s| + 1
    ensures r[0] == x || (|s| > 0 && r[0] == s[0])
  {
    if s == [] then [x]
    else if key(x) <= key(s[0]) then
      Antepuesto(x, s, key);
      [x] + s
    else
      var rest := Insertar(x, s[1..], key);
      assert s == [s[0]] + s[1..];
      Antepuesto(s[0], rest, key);
      [s[0]] + rest
  }

  /** Prepending an element whose key does not exceed the first key keeps a
      sorted sequence sorted. */
  lemma Antepuesto<T>(a: T, s: seq<T>, key: T -> int)
    requires Ordenada(s, key)
    requires |s| > 0 ==> key(a) <= key(s[0])
    ensures Ordenada([a] + s, key)
  {
    var r := [a] + s;
    forall i, j | 0 <= i < j < |r|
      ensures key(r[i]) <= key(r[j])
    {
      if i == 0 {
        assert key(s[0]) <= key(s[j - 1]);
      }
    }
  }

  /** A stable insertion sort by `key`: ORDER BY key, ties in input order. */
  function OrdenarPor<T>(s: seq<T>, key: T -> int): (r: seq<T>)
    ensures Ordenada(r, key)
    ensures multiset(r) == multiset(s)
    ensures |r| == |s|
  {
    if s == [] then []
    else
      assert s == [s[0]] + s[1..];
      Insertar(s[0], OrdenarPor(s[1..], key), key)
  }

  /** A repeated element shows up twice in the multiset. */
  lemma RepetidoCuentaDos<T>(s: seq<T>, i: nat, j: nat)
    requires i < j < |s| && s[i] == s[j]
    ensures multiset(s)[s[i]] >= 2
  {
    assert s == s[..j] + s[j..];
    assert s[i] in s[..j];
    assert s[j..][0] == s[j];
  }

  /** Without repetitions every element occurs at most once. */
  lemma {:induction false} SinRepetidosCuentaUno<T>(s: seq<T>, x: T)
    requires SinRepetidos(s)
    ensures multiset(s)[x] <= 1
  {
    if s != [] {
      assert s == [s[0]] + s[1..];
      assert SinRepetidos(s[1..]);
      SinRepetidosCuentaUno(s[1..], x);
      if x == s[0] {
        assert x !in s[1..];
      }
    }
  }

  /** Prepending an element the sequence does not hold keeps it free of repeats. */
  lemma SinRepetidosConPrimero<T>(x: T, s: seq<T>)
    requires SinRepetidos(s) && x !in s
    ensures SinRepetidos([x] + s)
  {
    var r := [x] + s;
    forall i, j | 0 <= i < j < |r|
      ensures r[i] != r[j]
    {
      assert r[j] == s[j - 1];
      if i > 0 {
        assert r[i] == s[i - 1];
      }
    }
  }

  /** Reordering a sequence without repetitions does not create one. */
  lemma PermutacionSinRepetidos<T>(s: seq<T>, r: seq<T>)
    requires SinRepetidos(s) && multiset(r) == multiset(s)
    ensures SinRepetidos(r)
  {
    forall i, j | 0 <= i < j < |r|
      ensures r[i] != r[j]
    {
      if r[i] == r[j] {
        RepetidoCuentaDos(r, i, j);
        SinRepetidosCuentaUno(s, r[i]);
      }
    }
  }

  function Min(a: int, b: int): int {
    if a <= b then a else b
  }

  /** The offset of page `page`: the number of elements on the pages before it. */
  function Desde(page: nat, size: nat): (d: nat)
  {
    if page == 0 then 0 else Desde(page - 1, size) + size
  }

  /** The offset is Spring's `page * size`. */
  lemma {:induction false} DesdeEsProducto(page: nat, size: nat)
    ensures Desde(page, size) == page * size
  {
    if page > 0 {
      DesdeEsProducto(page - 1, size);
      assert (page - 1) * size + size == page * size;
    }
  }

  /** A later page starts at or after the end of an earlier one. */
  lemma {:induction false} DesdeCrece(p1: nat, p2: nat, size: nat)
    requires p1 < p2
    ensures Desde(p1, size) + size <= Desde(p2, size)
    decreases p2
  {
    if p1 < p2 - 1 {
      DesdeCrece(p1, p2 - 1, size);
    }
  }

  /** `r` is page `page` of `xs` for pages of `size` elements: the contiguous
      window starting at the page's offset, as long as the elements left allow. */
  predicate EsPagina<T(==)>(r: seq<T>, xs: seq<T>, page: nat, size: nat) {
    && |r| <= size
    && (Desde(page, size) <= |xs| ==> |r| == Min(size, |xs| - Desde(page, size)))
    && (forall i :: 0 <= i < |r| ==> Desde(page, size) + i < |xs| && r[i] == xs[Desde(page, size) + i])
  }

  /** Page `page` of `size` elements (Spring's `PageRequest.of(page, size)` over an
      already ordered result); a page past the end is empty. */
  function Pagina<T>(xs: seq<T>, page: nat, size: nat): (r: seq<T>)
    requires size > 0
    ensures |r| <= size
    ensures Desde(page, size) <= |xs| ==> |r| == Min(size, |xs| - Desde(page, size))
    ensures Desde(page, size) >= |xs| ==> r == []
    ensures forall i :: 0 <= i < |r| ==> Desde(page, size) + i < |xs| && r[i] == xs[Desde(page, size) + i]
  {
    var desde := Desde(page, size);
    if desde >= |xs| then [] else xs[desde..Min(desde + size, |xs|)]
  }

  /** `Pagina` returns exactly page `page` of `xs`. */
  lemma PaginaEsPagina<T>(xs: seq<T>, page: nat, size: nat)
    requires size > 0
    ensures EsPagina(Pagina(xs, page, size), xs, page, size)
  {
  }

  /** Every element of the ordered result lies on exactly the page its position
      names: pages of one size leave no gap. */
  lemma PaginaCubre<T>(xs: seq<T>, size: nat, k: nat)
    requires size > 0 && k < |xs|
    ensures k % size < |Pagina(xs, k / size, size)|
    ensures Pagina(xs, k / size, size)[k % size] == xs[k]
  {
    var page := k / size;
    DesdeEsProducto(page, size);
    assert page * size + k % size == k;
  }

  /** Every element of the ordered result is on some page. */
  lemma PaginaContiene<T>(xs: seq<T>, size: nat, x: T)
    requires size > 0 && x in xs
    ensures exists page: nat :: x in Pagina(xs, page, size)
  {
    var k :| 0 <= k < |xs| && xs[k] == x;
    PaginaCubre(xs, size, k);
    var pagina := Pagina(xs, k / size, size);
    assert pagina[k % size] == x;
    assert x in pagina;
  }

  /** Pages with different indices share no element when the result has no
      repetitions: pages of one size never overlap. */
  lemma PaginasDisjuntas<T>(xs: seq<T>, p1: nat, p2: nat, size: nat)
    requires size > 0 && p1 != p2
    requires SinRepetidos(xs)
    ensures forall x :: x in Pagina(xs, p1, size) ==> x !in Pagina(xs, p2, size)
  {
    var a := Pagina(xs, p1, size);
    var b := Pagina(xs, p2, size);
    forall i, j | 0 <= i < |a| && 0 <= j < |b|
      ensures a[i] != b[j]
    {
      if p1 < p2 {
        DesdeCrece(p1, p2, size);
      } else {
        DesdeCrece(p2, p1, size);
      }
      assert a[i] == xs[Desde(p1, size) + i];
      assert b[j] == xs[Desde(p2, size) + j];
    }
  }
}

=== FILE: tarea_controller.dfy ===
/** The task endpoints. Header-scoped endpoints take the caller's id from
    `X-Usuario-Id`, already resolved; the `/usuario/{usuarioId}` listings take the
    owner from the path. Tasks leave the service as transfer objects. */
module TareaController {
  import opened Wrappers
  import opened Tabla
  import opened Errores
  import opened Respuestas
  import opened Tareas
  import opened Categorias
  import TareaRepository
  import TareaService
  import UsuarioRepository
  import Orden
  import Text

  /** The task transfer object: the owner and the category flattened to ids, plus
      the category's name. */
  datatype TareaDTO = TareaDTO(
    id: Option<Id>,
    titulo: string,
    descripcion: Option<string>,
    completada: bool,
    fechaCreacion: Instante,
    fechaVencimiento: Option<Fecha>,
    prioridad: Prioridad,
    usuarioId: Option<Id>,
    categoriaId: Option<Id>,
    categoriaNombre: Option<string>)

  /** `convertirATareaDTO(t)`. The category name is read from the category the
      task refers to, looked up in `cats`. */
  function ConvertirATareaDTO(t: Tarea, cats: map<Id, Categoria>): (d: TareaDTO)
    ensures TareaDeDTO(d) == t
    ensures d.categoriaId == t.categoria
    ensures d.categoriaId.None? ==> d.categoriaNombre.None?
    ensures d.categoriaId.Some? && d.categoriaId.value in cats ==>
      d.categoriaNombre == Some(cats[d.categoriaId.value].nombre)
  {
    TareaDTO(t.id, t.titulo, t.descripcion, t.completada, t.fechaCreacion,
             t.fechaVencimiento, t.prioridad, t.usuario,
             t.categoria,
             if t.categoria.Some? && t.categoria.value in cats then Some(cats[t.categoria.value].nombre) else None)
  }

  /** The task a transfer object was made from. */
  function TareaDeDTO(d: TareaDTO): Tarea {
    Tarea(d.id, d.titulo, d.descripcion, d.completada, d.fechaCreacion,
          d.fechaVencimiento, d.prioridad, d.usuarioId, d.categoriaId)
  }

  /** The projection copies every field of the task: the task can be read back
      from its transfer object. Both category fields are absent exactly when the
      task has no category, and the name is the referenced category's. */
  lemma ConvertirATareaDTOCopia(t: Tarea, cats: map<Id, Categoria>)
    requires t.categoria.Some? ==> t.categoria.value in cats
    ensures TareaDeDTO(ConvertirATareaDTO(t, cats)) == t
    ensures ConvertirATareaDTO(t, cats).categoriaId.None? <==> t.categoria.None?
    ensures ConvertirATareaDTO(t, cats).categoriaNombre.None? <==> t.categoria.None?
    ensures t.categoria.Some? ==> ConvertirATareaDTO(t, cats).categoriaNombre == Some(cats[t.categoria.value].nombre)
  {
  }

  /** The tasks a listing of transfer objects was made from. */
  function TareasDe(ds: seq<TareaDTO>): (ts: seq<Tarea>)
    ensures |ts| == |ds|
    ensures forall i :: 0 <= i < |ds| ==> ts[i] == TareaDeDTO(ds[i])
  {
    seq(|ds|, i requires 0 <= i < |ds| => TareaDeDTO(ds[i]))
  }

  /** Projects a listing element by element. */
  function ConvertirTodas(ts: seq<Tarea>, cats: map<Id, Categoria>): (ds: seq<TareaDTO>)
    ensures |ds| == |ts|
    ensures forall i :: 0 <= i < |ts| ==> TareaDeDTO(ds[i]) == ts[i]
    ensures forall t :: t in ts ==> exists i :: 0 <= i < |ds| && TareaDeDTO(ds[i]) == t
  {
    var ds := if ts == [] then [] else [ConvertirATareaDTO(ts[0], cats)] + ConvertirTodas(ts[1..], cats);
    ProyeccionCubre(ts, ds);
    ds
  }

  /** A listing projected element by element keeps a transfer object for every task. */
  lemma ProyeccionCubre(ts: seq<Tarea>, ds: seq<TareaDTO>)
    requires |ds| == |ts|
    requires forall i :: 0 <= i < |ts| ==> TareaDeDTO(ds[i]) == ts[i]
    ensures forall t :: t in ts ==> exists i :: 0 <= i < |ds| && TareaDeDTO(ds[i]) == t
  {
    forall t | t in ts
      ensures exists i :: 0 <= i < |ds| && TareaDeDTO(ds[i]) == t
    {
      var i :| 0 <= i < |ts| && ts[i] == t;
      assert TareaDeDTO(ds[i]) == t;
    }
  }

  /** `POST /api/tareas`: the owner is the header user, whatever the body says.
      An unknown header user, or any failure in the service, gives an empty bad
      request and leaves the table as it was. */
  function CrearTarea(us: UsuarioRepository.Store, ts: TareaRepository.Store, cats: map<Id, Categoria>,
                      body: Tarea, usuarioId: Id): (r: (TareaRepository.Store, Respuesta<TareaDTO>))
    requires TareaRepository.Valid(ts)
    ensures usuarioId !in us.usuarios ==> r == (ts, PeticionIncorrecta(""))
    ensures usuarioId in us.usuarios ==> (r.1.Ok? <==> TituloValido(body))
    ensures r.1.PeticionIncorrecta? ==> r.0 == ts
    ensures !r.1.Excepcion?
    ensures r.1.Ok? ==>
      && usuarioId in us.usuarios
      && TareaRepository.Valid(r.0)
      && r.1.cuerpo.usuarioId == Some(usuarioId)
      && r.1.cuerpo.id.Some? && r.1.cuerpo.id.value !in ts.tareas
      && r.0.tareas == ts.tareas[r.1.cuerpo.id.value := TareaDeDTO(r.1.cuerpo)]
      && TareaDeDTO(r.1.cuerpo) == body.(id := r.1.cuerpo.id, usuario := Some(usuarioId))
  {
    if usuarioId !in us.usuarios then (ts, PeticionIncorrecta(""))
    else
      match TareaService.CrearTarea(ts, body.(usuario := Some(usuarioId)))
      case Failure(_) => (ts, PeticionIncorrecta(""))
      case Success((ts2, creada)) => (ts2, Ok(ConvertirATareaDTO(creada, cats)))
  }

  /** `POST /api/tareas` as the source runs it, on `crearTarea` as written: the
      header user becomes the owner, and a body whose id names a stored task
      overwrites that task, whoever owned it. Any other body is created as by
      `CrearTarea`. */
  function CrearTareaAsWritten(us: UsuarioRepository.Store, ts: TareaRepository.Store, cats: map<Id, Categoria>,
                               body: Tarea, usuarioId: Id): (r: (TareaRepository.Store, Respuesta<TareaDTO>))
    requires TareaRepository.Valid(ts)
    ensures usuarioId !in us.usuarios ==> r == (ts, PeticionIncorrecta(""))
    ensures r.1.PeticionIncorrecta? ==> r.0 == ts
    ensures !r.1.Excepcion?
    ensures r.1.Ok? ==> TareaRepository.Valid(r.0) && r.1.cuerpo.usuarioId == Some(usuarioId)
    ensures !(body.id.Some? && body.id.value in ts.tareas) ==> r == CrearTarea(us, ts, cats, body, usuarioId)
    ensures usuarioId in us.usuarios && body.id.Some? && body.id.value in ts.tareas ==>
      && (r.1.Ok? <==> TituloValido(body))
      && (r.1.Ok? ==>
            && r.1.cuerpo.id == body.id
            && TareaDeDTO(r.1.cuerpo) == body.(usuario := Some(usuarioId))
            && r.0.tareas == ts.tareas[body.id.value := body.(usuario := Some(usuarioId))])
  {
    if usuarioId !in us.usuarios then (ts, PeticionIncorrecta(""))
    else
      match TareaService.CrearTareaAsWritten(ts, body.(usuario := Some(usuarioId)))
      case Failure(_) => (ts, PeticionIncorrecta(""))
      case Success((ts2, creada)) => (ts2, Ok(ConvertirATareaDTO(creada, cats)))
  }

  /** Through the creation endpoint as written, a known caller who puts another
      user's task id in the body takes that task over: the stored task changes
      and now belongs to the caller. */
  lemma CrearAsWrittenAlcanzaTareaAjena(us: UsuarioRepository.Store, ts: TareaRepository.Store,
                                        cats: map<Id, Categoria>, id: Id, body: Tarea, u: Id)
    requires TareaRepository.Valid(ts)
    requires u in us.usuarios
    requires id in ts.tareas && !DeUsuario(ts.tareas[id], u)
    requires TituloValido(body)
    ensures var r := CrearTareaAsWritten(us, ts, cats, body.(id := Some(id)), u);
      && r.1.Ok?
      && id in r.0.tareas
      && r.0.tareas[id] != ts.tareas[id]
      && DeUsuario(r.0.tareas[id], u)
  {
  }

  /** The owner named in the body has no effect on creation. */
  lemma CrearTareaIgnoraDuenoDelCuerpo(us: UsuarioRepository.Store, ts: TareaRepository.Store,
                                       cats: map<Id, Categoria>, body: Tarea, otro: Option<Id>, usuarioId: Id)
    requires TareaRepository.Valid(ts)
    ensures CrearTarea(us, ts, cats, body, usuarioId) == CrearTarea(us, ts, cats, body.(usuario := otro), usuarioId)
  {
    assert body.(usuario := Some(usuarioId)) == body.(usuario := otro).(usuario := Some(usuarioId));
  }

  /** `PageRequest.of(page, size)`: rejects a negative page and a size below one. */
  function PageRequest(page: int, size: int): (r: Result<(nat, TareaRepository.Tamano), Error>)
    ensures r.Success? <==> page >= 0 && size >= 1
    ensures r.Success? ==> r.value.0 == page && r.value.1 == size
  {
    if page < 0 then Failure(IllegalArgument("Page index must not be less than zero"))
    else if size < 1 then Failure(IllegalArgument("Page size must not be less than one"))
    else Success((page, size))
  }

  /** `GET /api/tareas?page&size&sort`: one page of the header user's tasks. */
  function ObtenerTareasDelUsuario(ts: TareaRepository.Store, cats: map<Id, Categoria>, usuarioId: Id,
                                   page: int, size: int, sort: TareaRepository.Clave): (r: Respuesta<seq<TareaDTO>>)
    requires TareaRepository.Valid(ts)
    ensures r.Ok? <==> page >= 0 && size >= 1
    ensures r.Excepcion? ==> r.error.IllegalArgument?
    ensures r.Ok? ==> |r.cuerpo| <= size
    ensures r.Ok? ==> forall i :: 0 <= i < |r.cuerpo| ==>
      r.cuerpo[i].usuarioId == Some(usuarioId) && TareaRepository.Almacenada(ts, TareaDeDTO(r.cuerpo[i]))
    ensures page >= 0 && size >= 1 ==>
      Orden.EsPagina(TareasDe(r.cuerpo), TareaRepository.OrdenadasDeUsuario(ts, usuarioId, sort), page, size)
  {
    match PageRequest(page, size)
    case Failure(e) => Excepcion(e)
    case Success(_) =>
      var pagina := TareaService.ObtenerTodasTareasPorUsuarioPaginado(ts, usuarioId, page, size, sort);
      var ds := ConvertirTodas(pagina, cats);
      assert TareasDe(ds) == pagina;
      Ok(ds)
  }

  /** The listing without parameters: page 0, size 10, sorted by id. */
  function ObtenerTareasDelUsuarioPorDefecto(ts: TareaRepository.Store, cats: map<Id, Categoria>, usuarioId: Id): (r: Respuesta<seq<TareaDTO>>)
    requires TareaRepository.Valid(ts)
    ensures r.Ok? && |r.cuerpo| <= 10
  {
    ObtenerTareasDelUsuario(ts, cats, usuarioId, 0, 10, TareaRepository.PorId)
  }

  /** The default listing is the header user's first ten tasks by ascending id. */
  lemma PorDefectoSonLasDiezPrimeras(ts: TareaRepository.Store, cats: map<Id, Categoria>, u: Id)
    requires TareaRepository.Valid(ts)
    ensures var r := ObtenerTareasDelUsuarioPorDefecto(ts, cats, u);
      var todas := TareaRepository.OrdenadasDeUsuario(ts, u, TareaRepository.PorId);
      && |r.cuerpo| == Orden.Min(10, |todas|)
      && forall i :: 0 <= i < |r.cuerpo| ==> TareaDeDTO(r.cuerpo[i]) == todas[i]
  {
    var r := ObtenerTareasDelUsuarioPorDefecto(ts, cats, u);
    var todas := TareaRepository.OrdenadasDeUsuario(ts, u, TareaRepository.PorId);
    assert Orden.EsPagina(TareasDe(r.cuerpo), todas, 0, 10);
    assert Orden.Desde(0, 10) == 0;
  }

  /** `GET /api/tareas/{id}`: only the header user's own task. */
  function ObtenerTareaPorId(ts: TareaRepository.Store, cats: map<Id, Categoria>, id: Id, usuarioId: Id): (r: Respuesta<TareaDTO>)
    requires TareaRepository.Valid(ts)
    ensures r.Ok? <==> id in ts.tareas && DeUsuario(ts.tareas[id], usuarioId)
    ensures r.Ok? ==> TareaDeDTO(r.cuerpo) == ts.tareas[id]
    ensures !r.Ok? ==> r == Excepcion(EntityNotFound("Tarea", id))
  {
    match TareaService.ObtenerTareaPorIdYUsuario(ts, id, usuarioId)
    case None => Excepcion(EntityNotFound("Tarea", id))
    case Some(t) => Ok(ConvertirATareaDTO(t, cats))
  }

  /** Lifts a service outcome into the store and the response. */
  function Responder(ts: TareaRepository.Store, cats: map<Id, Categoria>,
                     r: Result<(TareaRepository.Store, Tarea), Error>): (x: (TareaRepository.Store, Respuesta<TareaDTO>))
    ensures r.Failure? ==> x == (ts, Excepcion(r.error))
    ensures r.Success? ==> x.0 == r.value.0 && x.1.Ok? && TareaDeDTO(x.1.cuerpo) == r.value.1
  {
    match r
    case Failure(e) => (ts, Excepcion(e))
    case Success((ts2, t)) => (ts2, Ok(ConvertirATareaDTO(t, cats)))
  }

  /** `PUT /api/tareas/{id}`. */
  function ActualizarTarea(ts: TareaRepository.Store, cats: map<Id, Categoria>, id: Id, body: Tarea, usuarioId: Id): (r: (TareaRepository.Store, Respuesta<TareaDTO>))
    requires TareaRepository.Valid(ts)
    ensures !(id in ts.tareas && DeUsuario(ts.tareas[id], usuarioId)) ==>
      r == (ts, Excepcion(EntityNotFound("Tarea", id)))
    ensures id in ts.tareas && DeUsuario(ts.tareas[id], usuarioId) ==> (r.1.Ok? <==> TituloValido(body))
    ensures r.1.Ok? ==>
      && id in ts.tareas && DeUsuario(ts.tareas[id], usuarioId)
      && TareaDeDTO(r.1.cuerpo) == TareaService.AplicarCambios(ts.tareas[id], body)
      && r.0.tareas == ts.tareas[id := TareaDeDTO(r.1.cuerpo)]
      && TareaDeDTO(r.1.cuerpo).usuario == Some(usuarioId)
  {
    Responder(ts, cats, TareaService.ActualizarTarea(ts, id, body, usuarioId))
  }

  /** `PATCH /api/tareas/{id}/completar`. */
  function MarcarComoCompletada(ts: TareaRepository.Store, cats: map<Id, Categoria>, id: Id, usuarioId: Id): (r: (TareaRepository.Store, Respuesta<TareaDTO>))
    requires TareaRepository.Valid(ts)
    ensures r.1.Ok? <==> id in ts.tareas && DeUsuario(ts.tareas[id], usuarioId)
    ensures !r.1.Ok? ==> r == (ts, Excepcion(EntityNotFound("Tarea", id)))
    ensures r.1.Ok? ==>
      && r.1.cuerpo.completada
      && r.0.tareas == ts.tareas[id := ts.tareas[id].(completada := true)]
  {
    Responder(ts, cats, TareaService.MarcarComoCompletada(ts, id, usuarioId))
  }

  /** `PATCH /api/tareas/{id}/pendiente`. */
  function MarcarComoPendiente(ts: TareaRepository.Store, cats: map<Id, Categoria>, id: Id, usuarioId: Id): (r: (TareaRepository.Store, Respuesta<TareaDTO>))
    requires TareaRepository.Valid(ts)
    ensures r.1.Ok? <==> id in ts.tareas && DeUsuario(ts.tareas[id], usuarioId)
    ensures !r.1.Ok? ==> r == (ts, Excepcion(EntityNotFound("Tarea", id)))
    ensures r.1.Ok? ==>
      && !r.1.cuerpo.completada
      && r.0.tareas == ts.tareas[id := ts.tareas[id].(completada := false)]
  {
    Responder(ts, cats, TareaService.MarcarComoPendiente(ts, id, usuarioId))
  }

  const MensajeEliminada: string := "{\"message\": \"Tarea eliminada correctamente\"}"

  /** `DELETE /api/tareas/{id}`. */
  function EliminarTarea(ts: TareaRepository.Store, id: Id, usuarioId: Id): (r: (TareaRepository.Store, Respuesta<string>))
    requires TareaRepository.Valid(ts)
    ensures r.1.Ok? <==> id in ts.tareas && DeUsuario(ts.tareas[id], usuarioId)
    ensures !r.1.Ok? ==> r == (ts, Excepcion(EntityNotFound("Tarea", id)))
    ensures r.1.Ok? ==> r.1.cuerpo == MensajeEliminada && r.0.tareas == ts.tareas - {id}
  {
    match TareaService.EliminarTarea(ts, id, usuarioId)
    case Failure(e) => (ts, Excepcion(e))
    case Success(ts2) => (ts2, Ok(MensajeEliminada))
  }

  /** A caller never reaches another user's task through the header-scoped
      endpoints that name a task by its path id: read answers not-found, and
      update, both toggles and delete change nothing. Creation is not one of
      them: with the corrected `CrearTarea` another user's task stays as it was,
      but the source's endpoint (`CrearTareaAsWritten`) overwrites it, as
      `CrearAsWrittenAlcanzaTareaAjena` shows. */
  lemma EndpointsAisladosPorCabecera(us: UsuarioRepository.Store, ts: TareaRepository.Store, cats: map<Id, Categoria>,
                                     id: Id, body: Tarea, u: Id)
    requires TareaRepository.Valid(ts)
    requires id in ts.tareas && !DeUsuario(ts.tareas[id], u)
    ensures ObtenerTareaPorId(ts, cats, id, u) == Excepcion(EntityNotFound("Tarea", id))
    ensures ActualizarTarea(ts, cats, id, body, u).0 == ts
    ensures MarcarComoCompletada(ts, cats, id, u).0 == ts
    ensures MarcarComoPendiente(ts, cats, id, u).0 == ts
    ensures EliminarTarea(ts, id, u).0 == ts
    ensures var creada := CrearTarea(us, ts, cats, body, u).0;
      id in creada.tareas && creada.tareas[id] == ts.tareas[id]
  {
  }

  /** `GET /api/tareas/usuario/{usuarioId}`. */
  function ObtenerTareasPorUsuario(ts: TareaRepository.Store, cats: map<Id, Categoria>, usuarioId: Id): (r: seq<TareaDTO>)
    requires TareaRepository.Valid(ts)
    ensures forall i :: 0 <= i < |r| ==>
      r[i].usuarioId == Some(usuarioId) && TareaRepository.Almacenada(ts, TareaDeDTO(r[i]))
    ensures forall k :: k in ts.tareas && DeUsuario(ts.tareas[k], usuarioId) ==>
      exists i :: 0 <= i < |r| && TareaDeDTO(r[i]) == ts.tareas[k]
  {
    ConvertirTodas(TareaService.ObtenerTareasPorUsuario(ts, usuarioId), cats)
  }

  /** `GET /api/tareas/usuario/{usuarioId}/pendientes`. */
  function ObtenerTareasPendientesPorUsuario(ts: TareaRepository.Store, cats: map<Id, Categoria>, usuarioId: Id): (r: seq<TareaDTO>)
    requires TareaRepository.Valid(ts)
    ensures forall i :: 0 <= i < |r| ==>
      r[i].usuarioId == Some(usuarioId) && !r[i].completada && TareaRepository.Almacenada(ts, TareaDeDTO(r[i]))
    ensures forall k :: k in ts.tareas && DeUsuario(ts.tareas[k], usuarioId) && !ts.tareas[k].completada ==>
      exists i :: 0 <= i < |r| && TareaDeDTO(r[i]) == ts.tareas[k]
  {
    ConvertirTodas(TareaService.ObtenerTareasPendientesPorUsuario(ts, usuarioId), cats)
  }

  /** `GET /api/tareas/usuario/{usuarioId}/completadas`. */
  function ObtenerTareasCompletadasPorUsuario(ts: TareaRepository.Store, cats: map<Id, Categoria>, usuarioId: Id): (r: seq<TareaDTO>)
    requires TareaRepository.Valid(ts)
    ensures forall i :: 0 <= i < |r| ==>
      r[i].usuarioId == Some(usuarioId) && r[i].completada && TareaRepository.Almacenada(ts, TareaDeDTO(r[i]))
    ensures forall k :: k in ts.tareas && DeUsuario(ts.tareas[k], usuarioId) && ts.tareas[k].completada ==>
      exists i :: 0 <= i < |r| && TareaDeDTO(r[i]) == ts.tareas[k]
  {
    ConvertirTodas(TareaService.ObtenerTareasCompletadasPorUsuario(ts, usuarioId), cats)
  }

  /** `GET /api/tareas/usuario/{usuarioId}/prioridad/{prioridad}`. */
  function ObtenerTareasPorPrioridadYUsuario(ts: TareaRepository.Store, cats: map<Id, Categoria>, usuarioId: Id, p: Prioridad): (r: seq<TareaDTO>)
    requires TareaRepository.Valid(ts)
    ensures forall i :: 0 <= i < |r| ==>
      r[i].usuarioId == Some(usuarioId) && r[i].prioridad == p && TareaRepository.Almacenada(ts, TareaDeDTO(r[i]))
    ensures forall k :: k in ts.tareas && DeUsuario(ts.tareas[k], usuarioId) && ts.tareas[k].prioridad == p ==>
      exists i :: 0 <= i < |r| && TareaDeDTO(r[i]) == ts.tareas[k]
  {
    ConvertirTodas(TareaService.ObtenerTareasPorPrioridadYUsuario(ts, usuarioId, p), cats)
  }

  /** `GET /api/tareas/usuario/{usuarioId}/buscar?titulo=q`. */
  function BuscarTareasPorTitulo(ts: TareaRepository.Store, cats: map<Id, Categoria>, usuarioId: Id, q: string): (r: seq<TareaDTO>)
    requires TareaRepository.Valid(ts)
    ensures forall i :: 0 <= i < |r| ==>
      r[i].usuarioId == Some(usuarioId) && Text.ContainsIgnoreCase(r[i].titulo, q)
      && TareaRepository.Almacenada(ts, TareaDeDTO(r[i]))
    ensures forall k :: k in ts.tareas && DeUsuario(ts.tareas[k], usuarioId) && Text.ContainsIgnoreCase(ts.tareas[k].titulo, q) ==>
      exists i :: 0 <= i < |r| && TareaDeDTO(r[i]) == ts.tareas[k]
  {
    ConvertirTodas(TareaService.BuscarTareasPorTituloYUsuario(ts, usuarioId, q), cats)
  }

  /** `GET /api/tareas/usuario/{usuarioId}/proximas-vencer`. */
  function ObtenerTareasProximasAVencer(ts: TareaRepository.Store, cats: map<Id, Categoria>, usuarioId: Id): (r: seq<TareaDTO>)
    requires TareaRepository.Valid(ts)
    ensures forall i :: 0 <= i < |r| ==>
      r[i].usuarioId == Some(usuarioId) && !r[i].completada && r[i].fechaVencimiento.Some?
      && TareaRepository.Almacenada(ts, TareaDeDTO(r[i]))
    ensures forall i, j :: 0 <= i < j < |r| ==> r[i].fechaVencimiento.value <= r[j].fechaVencimiento.value
    ensures forall k :: k in ts.tareas && DeUsuario(ts.tareas[k], usuarioId) && TareaRepository.ProximaAVencer(ts.tareas[k]) ==>
      exists i :: 0 <= i < |r| && TareaDeDTO(r[i]) == ts.tareas[k]
  {
    var xs := TareaService.ObtenerTareasProximasAVencer(ts, usuarioId);
    ConvertirConservaVencimientos(xs, cats);
    ConvertirTodas(xs, cats)
  }

  /** Projecting a listing keeps each element's due date where it was, so a listing
      sorted by due date stays sorted. */
  lemma ConvertirConservaVencimientos(xs: seq<Tarea>, cats: map<Id, Categoria>)
    requires forall i :: 0 <= i < |xs| ==> xs[i].fechaVencimiento.Some?
    requires forall i, j :: 0 <= i < j < |xs| ==> xs[i].fechaVencimiento.value <= xs[j].fechaVencimiento.value
    ensures var r := ConvertirTodas(xs, cats);
      forall i, j :: 0 <= i < j < |r| ==> r[i].fechaVencimiento.Some? && r[i].fechaVencimiento.value <= r[j].fechaVencimiento.value
  {
    var r := ConvertirTodas(xs, cats);
    assert forall i :: 0 <= i < |r| ==> r[i].fechaVencimiento == xs[i].fechaVencimiento by {
      forall i | 0 <= i < |r|
        ensures r[i].fechaVencimiento == xs[i].fechaVencimiento
      {
        assert TareaDeDTO(r[i]) == xs[i];
      }
    }
  }

  /** A known caller creating a task with a valid title succeeds, and reading the
      new id back answers exactly the creation response. */
  lemma CrearLuegoLeer(us: UsuarioRepository.Store, ts: TareaRepository.Store, cats: map<Id, Categoria>,
                       body: Tarea, u: Id)
    requires TareaRepository.Valid(ts)
    requires u in us.usuarios && TituloValido(body)
    ensures var r := CrearTarea(us, ts, cats, body, u);
      && r.1.Ok?
      && ObtenerTareaPorId(r.0, cats, r.1.cuerpo.id.value, u) == r.1
  {
    var (ts2, creada) := TareaService.CrearTarea(ts, body.(usuario := Some(u))).value;
    assert ts2.tareas[creada.id.value] == creada;
  }

  /** The owner updating a task with a valid title succeeds, and reading the task
      back answers exactly the update response. */
  lemma ActualizarLuegoLeer(ts: TareaRepository.Store, cats: map<Id, Categoria>, id: Id, body: Tarea, u: Id)
    requires TareaRepository.Valid(ts)
    requires id in ts.tareas && DeUsuario(ts.tareas[id], u) && TituloValido(body)
    ensures var r := ActualizarTarea(ts, cats, id, body, u);
      && r.1.Ok?
      && ObtenerTareaPorId(r.0, cats, id, u) == r.1
  {
    var (ts2, t) := TareaService.ActualizarTarea(ts, id, body, u).value;
    assert ts2.tareas[id] == t;
  }
}

=== FILE: tarea_repository.dfy ===
/** The task table and the owner-scoped queries declared on it. Every query is an
    owner predicate conjoined with a filter. In this model an unsorted query returns
    its rows in ascending id order; the database itself promises no order there. */
module TareaRepository {
  import opened Wrappers
  import opened Tabla
  import opened Tareas
  import opened Errores
  import Orden
  import Text

  /** The `tareas` table and the next identity value. */
  datatype Store = Store(tareas: map<Id, Tarea>, siguiente: Id)

  /** Table invariant: every row is stored under its own id, below the next
      identity value, and passed bean validation when it was saved. */
  predicate Valid(s: Store) {
    forall k :: k in s.tareas ==>
      k < s.siguiente && s.tareas[k].id == Some(k) && TituloValido(s.tareas[k])
  }

  /** `t` is the current row stored under its own id. */
  predicate Almacenada(s: Store, t: Tarea) {
    t.id.Some? && t.id.value in s.tareas && s.tareas[t.id.value] == t
  }

  /** The id of a stored row (rows without an id sort first). */
  function IdDe(t: Tarea): int {
    if t.id.Some? then t.id.value else -1
  }

  /** Reference meaning of `SELECT t FROM Tarea t WHERE p(t)` as a bag: only stored
      rows satisfying `p`, every such row, and none twice. */
  ghost predicate Contenido(s: Store, p: Tarea -> bool, r: seq<Tarea>) {
    && (forall i :: 0 <= i < |r| ==> Almacenada(s, r[i]) && p(r[i]))
    && (forall k :: k in s.tareas && p(s.tareas[k]) ==> s.tareas[k] in r)
    && Orden.SinRepetidos(r)
  }

  /** The same rows in ascending id order. */
  ghost predicate Listado(s: Store, p: Tarea -> bool, r: seq<Tarea>) {
    && Contenido(s, p, r)
    && forall i, j :: 0 <= i < j < |r| ==> IdDe(r[i]) < IdDe(r[j])
  }

  /** Scanning the keys in order yields exactly the listing the query promises. */
  lemma SeleccionarEsListado(s: Store, p: Tarea -> bool)
    requires Valid(s)
    ensures Listado(s, p, Seleccionar(s.tareas, s.siguiente, p))
  {
    var ks := Claves(s.tareas, s.siguiente, p);
    var r := Filas(s.tareas, ks);
    FilasConSuId(s, ks, r);
    FilasCompletas(s, p, ks, r);
    FilasFiltradas(s, p, ks, r);
  }

  /** The rows fetched for stored keys are stored, each under the key it was fetched by. */
  lemma FilasConSuId(s: Store, ks: seq<Id>, r: seq<Tarea>)
    requires Valid(s)
    requires forall k :: k in ks ==> k in s.tareas
    requires |r| == |ks| && forall i :: 0 <= i < |ks| ==> r[i] == s.tareas[ks[i]]
    ensures forall i :: 0 <= i < |r| ==> IdDe(r[i]) == ks[i] && Almacenada(s, r[i])
  {
    forall i | 0 <= i < |r|
      ensures IdDe(r[i]) == ks[i] && Almacenada(s, r[i])
    {
      assert ks[i] in ks;
    }
  }

  /** Fetching every key that satisfies `p` fetches every row that satisfies it. */
  lemma FilasCompletas(s: Store, p: Tarea -> bool, ks: seq<Id>, r: seq<Tarea>)
    requires Valid(s)
    requires forall k :: k in ks <==> k < s.siguiente && k in s.tareas && p(s.tareas[k])
    requires |r| == |ks| && forall i :: 0 <= i < |ks| ==> r[i] == s.tareas[ks[i]]
    ensures forall k :: k in s.tareas && p(s.tareas[k]) ==> s.tareas[k] in r
  {
    forall k | k in s.tareas && p(s.tareas[k])
      ensures s.tareas[k] in r
    {
      assert k in ks;
      var i :| 0 <= i < |ks| && ks[i] == k;
      assert r[i] == s.tareas[k];
    }
  }

  /** Fetching only keys whose rows satisfy `p` fetches only rows that satisfy it. */
  lemma FilasFiltradas(s: Store, p: Tarea -> bool, ks: seq<Id>, r: seq<Tarea>)
    requires forall k :: k in ks ==> k in s.tareas && p(s.tareas[k])
    requires |r| == |ks| && forall i :: 0 <= i < |ks| ==> r[i] == s.tareas[ks[i]]
    ensures forall i :: 0 <= i < |r| ==> p(r[i])
  {
    forall i | 0 <= i < |r|
      ensures p(r[i])
    {
      assert ks[i] in ks;
    }
  }

  /** Runs a WHERE clause over the table. */
  function Seleccion(s: Store, p: Tarea -> bool): (r: seq<Tarea>)
    requires Valid(s)
    ensures Listado(s, p, r)
  {
    SeleccionarEsListado(s, p);
    Seleccionar(s.tareas, s.siguiente, p)
  }

  /** `findById(id)`: the unscoped primary-key lookup. */
  function FindById(s: Store, id: Id): (r: Option<Tarea>)
    requires Valid(s)
    ensures r.Some? <==> id in s.tareas
    ensures r.Some? ==> Almacenada(s, r.value) && r.value.id == Some(id)
  {
    if id in s.tareas then Some(s.tareas[id]) else None
  }

  /** `findByIdAndUsuarioId(id, u)`: present exactly when row `id` exists and
      is owned by `u`; a missing row and a foreign row both give empty. */
  function FindByIdAndUsuarioId(s: Store, id: Id, u: Id): (r: Option<Tarea>)
    requires Valid(s)
    ensures r.Some? <==> id in s.tareas && DeUsuario(s.tareas[id], u)
    ensures r.Some? ==> Almacenada(s, r.value) && r.value.id == Some(id) && DeUsuario(r.value, u)
  {
    if id in s.tareas && DeUsuario(s.tareas[id], u) then Some(s.tareas[id]) else None
  }

  /** The WHERE clause of `findByUsuarioId(u)`. */
  function PorUsuario(u: Id): Tarea -> bool {
    t => DeUsuario(t, u)
  }

  /** The WHERE clause of `findByUsuarioIdAndCompletada(u, c)`. */
  function PorEstado(u: Id, c: bool): Tarea -> bool {
    t => DeUsuario(t, u) && t.completada == c
  }

  /** `findByUsuarioId(u)`: all of `u`'s tasks. */
  function FindByUsuarioId(s: Store, u: Id): (r: seq<Tarea>)
    requires Valid(s)
    ensures Listado(s, PorUsuario(u), r)
  {
    Seleccion(s, PorUsuario(u))
  }

  /** `findByUsuarioIdAndCompletada(u, c)`. */
  function FindByUsuarioIdAndCompletada(s: Store, u: Id, c: bool): (r: seq<Tarea>)
    requires Valid(s)
    ensures Listado(s, PorEstado(u, c), r)
  {
    Seleccion(s, PorEstado(u, c))
  }

  /** `countByUsuarioIdAndCompletadaFalse(u)`: `SELECT COUNT(t)` of `u`'s pending rows. */
  function CountByUsuarioIdAndCompletadaFalse(s: Store, u: Id): (n: nat)
    requires Valid(s)
    ensures n == |FindByUsuarioIdAndCompletada(s, u, false)|
  {
    ContarEsLongitud(s.tareas, s.siguiente, PorEstado(u, false));
    Contar(s.tareas, PorEstado(u, false))
  }

  /** The count of pending tasks is the length of the pending listing. */
  lemma CountEsLongitud(s: Store, u: Id)
    requires Valid(s)
    ensures CountByUsuarioIdAndCompletadaFalse(s, u) == |FindByUsuarioIdAndCompletada(s, u, false)|
  {
    ContarEsLongitud(s.tareas, s.siguiente, PorEstado(u, false));
  }

  /** The completed and the pending listings of `u` are disjoint, together hold
      exactly `u`'s tasks, and their lengths add up to the full listing's. */
  lemma ParticionPorEstado(s: Store, u: Id)
    requires Valid(s)
    ensures forall t :: t in FindByUsuarioIdAndCompletada(s, u, true) ==>
      t !in FindByUsuarioIdAndCompletada(s, u, false)
    ensures forall t :: t in FindByUsuarioId(s, u) <==>
      t in FindByUsuarioIdAndCompletada(s, u, true) || t in FindByUsuarioIdAndCompletada(s, u, false)
    ensures |FindByUsuarioId(s, u)| ==
      |FindByUsuarioIdAndCompletada(s, u, true)| + |FindByUsuarioIdAndCompletada(s, u, false)|
  {
    var todas := FindByUsuarioId(s, u);
    var hechas := FindByUsuarioIdAndCompletada(s, u, true);
    var pendientes := FindByUsuarioIdAndCompletada(s, u, false);
    ClavesParticion(s.tareas, s.siguiente, PorUsuario(u), PorEstado(u, true), PorEstado(u, false));
    forall t | t in todas
      ensures t in hechas || t in pendientes
    {
      var i :| 0 <= i < |todas| && todas[i] == t;
      assert Almacenada(s, t);
      var k := t.id.value;
      assert s.tareas[k] == t;
    }
    forall t | t in hechas || t in pendientes
      ensures t in todas
    {
      if t in hechas {
        var i :| 0 <= i < |hechas| && hechas[i] == t;
      } else {
        var i :| 0 <= i < |pendientes| && pendientes[i] == t;
      }
      assert s.tareas[t.id.value] == t;
    }
  }

  /** `findByUsuarioIdAndPrioridad(u, p)`. */
  function FindByUsuarioIdAndPrioridad(s: Store, u: Id, p: Prioridad): (r: seq<Tarea>)
    requires Valid(s)
    ensures Listado(s, t => DeUsuario(t, u) && t.prioridad == p, r)
  {
    Seleccion(s, t => DeUsuario(t, u) && t.prioridad == p)
  }

  /** `findByUsuarioIdAndCategoriaId(u, c)`: `t.categoria.id = :categoriaId`, which
      is never true of a task without a category. */
  function FindByUsuarioIdAndCategoriaId(s: Store, u: Id, c: Id): (r: seq<Tarea>)
    requires Valid(s)
    ensures Listado(s, t => DeUsuario(t, u) && t.categoria == Some(c), r)
  {
    Seleccion(s, t => DeUsuario(t, u) && t.categoria == Some(c))
  }

  /** Reordering a listing keeps its contents: the same rows, each once. */
  lemma ContenidoPermutado(s: Store, p: Tarea -> bool, base: seq<Tarea>, r: seq<Tarea>)
    requires Contenido(s, p, base) && multiset(r) == multiset(base)
    ensures Contenido(s, p, r)
  {
    Orden.PermutacionSinRepetidos(base, r);
    forall i | 0 <= i < |r|
      ensures r[i] in base
    {
      assert r[i] in multiset(r);
    }
    forall t | t in base
      ensures t in r
    {
      assert t in multiset(r);
    }
  }

  /** The due date of a dated task (the sort key of the due-soon query). */
  function Vencimiento(t: Tarea): int {
    if t.fechaVencimiento.Some? then t.fechaVencimiento.value else 0
  }

  /** Pending and dated: the WHERE clause of the due-soon query beyond the owner. */
  predicate ProximaAVencer(t: Tarea) {
    t.fechaVencimiento.Some? && !t.completada
  }

  /** `findTareasProximasAVencerByUsuario(u)`: `u`'s pending tasks that have a due
      date, `ORDER BY fechaVencimiento ASC`. The query names no tie-break; the
      model keeps equal dates in id order. */
  function FindTareasProximasAVencerByUsuario(s: Store, u: Id): (r: seq<Tarea>)
    requires Valid(s)
    ensures Contenido(s, t => DeUsuario(t, u) && ProximaAVencer(t), r)
    ensures Orden.Ordenada(r, Vencimiento)
  {
    var base := Seleccion(s, t => DeUsuario(t, u) && ProximaAVencer(t));
    var r := Orden.OrdenarPor(base, Vencimiento);
    ContenidoPermutado(s, t => DeUsuario(t, u) && ProximaAVencer(t), base, r);
    r
  }

  /** `findByUsuarioIdAndTituloContaining(u, q)`: `LOWER(titulo) LIKE
      LOWER('%' || q || '%')`, read as plain case-insensitive containment. */
  function FindByUsuarioIdAndTituloContaining(s: Store, u: Id, q: string): (r: seq<Tarea>)
    requires Valid(s)
    ensures Listado(s, t => DeUsuario(t, u) && Text.ContainsIgnoreCase(t.titulo, q), r)
  {
    Seleccion(s, t => DeUsuario(t, u) && Text.ContainsIgnoreCase(t.titulo, q))
  }

  /** The sort properties the paged listing accepts; `Sort.by("id")` is the default. */
  datatype Clave = PorId | PorFechaCreacion | PorPrioridad

  /** Position of a priority when its stored name is sorted as text. */
  function RangoPrioridad(p: Prioridad): int {
    match p
    case ALTA => 0
    case BAJA => 1
    case MEDIA => 2
  }

  /** The ascending sort value of a row under a sort property. */
  function ValorClave(c: Clave, t: Tarea): int {
    match c
    case PorId => IdDe(t)
    case PorFechaCreacion => t.fechaCreacion
    case PorPrioridad => RangoPrioridad(t.prioridad)
  }

  /** A page size: `PageRequest` refuses sizes below one. */
  type Tamano = n: nat | n > 0 witness 1

  /** The sort key for `c`, as a function of the task. */
  function Llave(c: Clave): Tarea -> int {
    t => ValorClave(c, t)
  }

  /** `u`'s tasks with ids from `n` on, sorted by `c`: each row is inserted in id
      order ahead of the rows with an equal key, so ties keep id order. */
  function OrdenadasDesde(s: Store, u: Id, c: Clave, n: nat): (r: seq<Tarea>)
    requires Valid(s)
    ensures forall i :: 0 <= i < |r| ==> Almacenada(s, r[i]) && DeUsuario(r[i], u) && IdDe(r[i]) >= n
    ensures forall k :: k in s.tareas && n <= k && DeUsuario(s.tareas[k], u) ==> s.tareas[k] in r
    ensures Orden.SinRepetidos(r)
    ensures Orden.Ordenada(r, Llave(c))
    decreases s.siguiente - n
  {
    if n >= s.siguiente then []
    else
      var resto := OrdenadasDesde(s, u, c, n + 1);
      if n in s.tareas && DeUsuario(s.tareas[n], u) then
        var x := s.tareas[n];
        var r := Orden.Insertar(x, resto, Llave(c));
        InsertarFila(s, u, n, resto, r);
        r
      else
        resto
  }

  /** Inserting row `n` into the sorted rows above it yields the sorted rows from `n` on. */
  lemma InsertarFila(s: Store, u: Id, n: nat, resto: seq<Tarea>, r: seq<Tarea>)
    requires Valid(s) && n in s.tareas && DeUsuario(s.tareas[n], u)
    requires forall i :: 0 <= i < |resto| ==> Almacenada(s, resto[i]) && DeUsuario(resto[i], u) && IdDe(resto[i]) >= n + 1
    requires forall k :: k in s.tareas && n + 1 <= k && DeUsuario(s.tareas[k], u) ==> s.tareas[k] in resto
    requires Orden.SinRepetidos(resto)
    requires multiset(r) == multiset(resto) + multiset{s.tareas[n]}
    ensures forall i :: 0 <= i < |r| ==> Almacenada(s, r[i]) && DeUsuario(r[i], u) && IdDe(r[i]) >= n
    ensures forall k :: k in s.tareas && n <= k && DeUsuario(s.tareas[k], u) ==> s.tareas[k] in r
    ensures Orden.SinRepetidos(r)
  {
    var x := s.tareas[n];
    assert x !in resto;
    Orden.SinRepetidosConPrimero(x, resto);
    assert multiset([x] + resto) == multiset(r);
    Orden.PermutacionSinRepetidos([x] + resto, r);
    forall i | 0 <= i < |r|
      ensures Almacenada(s, r[i]) && DeUsuario(r[i], u) && IdDe(r[i]) >= n
    {
      assert r[i] in multiset(r);
      if r[i] != x {
        assert r[i] in multiset(resto);
        var j :| 0 <= j < |resto| && resto[j] == r[i];
      }
    }
    forall k | k in s.tareas && n <= k && DeUsuario(s.tareas[k], u)
      ensures s.tareas[k] in r
    {
      if k == n {
        assert x in multiset(r);
      } else {
        assert s.tareas[k] in resto;
        assert s.tareas[k] in multiset(resto);
        assert s.tareas[k] in multiset(r);
      }
    }
  }

  /** All of `u`'s tasks sorted by `c` (ties in id order). */
  function OrdenadasDeUsuario(s: Store, u: Id, c: Clave): (r: seq<Tarea>)
    requires Valid(s)
    ensures Contenido(s, PorUsuario(u), r)
    ensures Orden.Ordenada(r, Llave(c))
  {
    OrdenadasDesde(s, u, c, 0)
  }

  /** `findByUsuarioId(u, PageRequest.of(page, size, Sort.by(c)))`: one page of
      `u`'s sorted tasks, a contiguous window of them. */
  function FindByUsuarioIdPaginado(s: Store, u: Id, page: nat, size: Tamano, c: Clave): (r: seq<Tarea>)
    requires Valid(s)
    ensures |r| <= size
    ensures forall i :: 0 <= i < |r| ==> Almacenada(s, r[i]) && DeUsuario(r[i], u)
    ensures Orden.EsPagina(r, OrdenadasDeUsuario(s, u, c), page, size)
  {
    Orden.PaginaEsPagina(OrdenadasDeUsuario(s, u, c), page, size);
    Orden.Pagina(OrdenadasDeUsuario(s, u, c), page, size)
  }

  /** Pages of one size at different indices share no task. */
  lemma PaginasDisjuntas(s: Store, u: Id, c: Clave, size: Tamano, p1: nat, p2: nat)
    requires Valid(s)
    requires p1 != p2
    ensures forall t :: t in FindByUsuarioIdPaginado(s, u, p1, size, c) ==>
      t !in FindByUsuarioIdPaginado(s, u, p2, size, c)
  {
    Orden.PaginasDisjuntas(OrdenadasDeUsuario(s, u, c), p1, p2, size);
  }

  /** Every task of the owner lies on the page its sorted position names: the
      pages leave no gap. */
  lemma PaginasCubren(s: Store, u: Id, c: Clave, size: Tamano, t: Tarea)
    requires Valid(s)
    requires Almacenada(s, t) && DeUsuario(t, u)
    ensures exists page: nat :: t in FindByUsuarioIdPaginado(s, u, page, size, c)
  {
    var xs := OrdenadasDeUsuario(s, u, c);
    var k := t.id.value;
    assert k in s.tareas && DeUsuario(s.tareas[k], u);
    Orden.PaginaContiene(xs, size, t);
    var page: nat :| t in Orden.Pagina(xs, page, size);
    assert Orden.Pagina(xs, page, size) == FindByUsuarioIdPaginado(s, u, page, size, c);
  }

  /** `save` of a new entity (null id): bean validation, then an INSERT under the
      next identity value. */
  function Persistir(s: Store, t: Tarea): (r: Result<(Store, Tarea), Error>)
    requires Valid(s)
    ensures !TituloValido(t) <==> r.Failure?
    ensures r.Failure? ==> r.error == ConstraintViolation(MensajeTitulo)
    ensures r.Success? ==>
      var (s2, creada) := r.value;
      && Valid(s2)
      && s.siguiente !in s.tareas
      && creada == t.(id := Some(s.siguiente))
      && s2.tareas == s.tareas[s.siguiente := creada]
  {
    if !TituloValido(t) then Failure(ConstraintViolation(MensajeTitulo))
    else
      var creada := t.(id := Some(s.siguiente));
      Success((Store(s.tareas[s.siguiente := creada], s.siguiente + 1), creada))
  }

  /** The message of the title's `@NotBlank`. */
  const MensajeTitulo: string := "El título es obligatorio"

  /** `save` of a row that exists: bean validation, then an UPDATE of that row. */
  function Guardar(s: Store, t: Tarea): (r: Result<Store, Error>)
    requires Valid(s)
    requires t.id.Some? && t.id.value in s.tareas
    ensures !TituloValido(t) <==> r.Failure?
    ensures r.Failure? ==> r.error == ConstraintViolation(MensajeTitulo)
    ensures r.Success? ==> Valid(r.value) && r.value.tareas == s.tareas[t.id.value := t]
  {
    if !TituloValido(t) then Failure(ConstraintViolation(MensajeTitulo))
    else Success(s.(tareas := s.tareas[t.id.value := t]))
  }

  /** `delete(t)` of an existing row. */
  function Borrar(s: Store, id: Id): (r: Store)
    requires Valid(s) && id in s.tareas
    ensures Valid(r) && r.tareas == s.tareas - {id}
  {
    s.(tareas := s.tareas - {id})
  }

  /** `save(t)` exactly as Spring Data runs it: an entity whose id is set is
      merged into the row with that id, whatever that row held; only an entity
      without a stored id is inserted. */
  function SaveAsWritten(s: Store, t: Tarea): (r: Result<(Store, Tarea), Error>)
    requires Valid(s)
    ensures r.Success? ==> Valid(r.value.0)
    ensures t.id.Some? && t.id.value in s.tareas && TituloValido(t) ==>
      r == Success((s.(tareas := s.tareas[t.id.value := t]), t))
  {
    if t.id.Some? && t.id.value in s.tareas then
      match Guardar(s, t)
      case Success(s2) => Success((s2, t))
      case Failure(e) => Failure(e)
    else Persistir(s, t)
  }
}

=== FILE: tarea_service.dfy ===
/** The ownership-scoped task service. Every single-task operation goes through
    the owner-checked lookup, and every listing is scoped to one owner. */
module TareaService {
  import opened Wrappers
  import opened Tabla
  import opened Tareas
  import opened Errores
  import opened TareaRepository
  import Orden

  /** Every stored task has an owner: creation refuses an ownerless task and no
      operation changes the owner afterwards. */
  predicate ConDueno(s: Store) {
    forall k :: k in s.tareas ==> s.tareas[k].usuario.Some?
  }

  /** The message of the ownerless-task rejection. */
  const MensajeSinUsuario: string := "La tarea debe tener un usuario asignado"

  /** The not-found error of the owner-checked operations. */
  function NoEncontrada(id: Id): Error {
    EntityNotFound("Tarea", id)
  }

  /** `obtenerTodasTareasPorUsuario(u, pageable)`. */
  function ObtenerTodasTareasPorUsuarioPaginado(s: Store, u: Id, page: nat, size: Tamano, c: Clave): (r: seq<Tarea>)
    requires Valid(s)
    ensures |r| <= size
    ensures forall i :: 0 <= i < |r| ==> Almacenada(s, r[i]) && DeUsuario(r[i], u)
    ensures Orden.EsPagina(r, OrdenadasDeUsuario(s, u, c), page, size)
  {
    FindByUsuarioIdPaginado(s, u, page, size, c)
  }

  /** `obtenerTodasTareasPorUsuario(u)` and `obtenerTareasPorUsuario(u)`. */
  function ObtenerTareasPorUsuario(s: Store, u: Id): (r: seq<Tarea>)
    requires Valid(s)
    ensures forall i :: 0 <= i < |r| ==> Almacenada(s, r[i]) && DeUsuario(r[i], u)
    ensures forall k :: k in s.tareas && DeUsuario(s.tareas[k], u) ==> s.tareas[k] in r
  {
    FindByUsuarioId(s, u)
  }

  /** `crearTarea(t)`: refuses a task without an owner, otherwise inserts it as
      given under a fresh id; no existing task changes. */
  function CrearTarea(s: Store, t: Tarea): (r: Result<(Store, Tarea), Error>)
    requires Valid(s)
    ensures t.usuario.None? ==> r == Failure(IllegalArgument(MensajeSinUsuario))
    ensures t.usuario.Some? ==> (r.Failure? <==> !TituloValido(t))
    ensures r.Success? ==>
      var (s2, creada) := r.value;
      && Valid(s2)
      && (ConDueno(s) ==> ConDueno(s2))
      && creada.id.Some? && creada.id.value !in s.tareas
      && creada == t.(id := creada.id)
      && s2.tareas.Keys == s.tareas.Keys + {creada.id.value}
      && s2.tareas[creada.id.value] == creada
      && (forall k :: k in s.tareas ==> s2.tareas[k] == s.tareas[k])
  {
    if t.usuario.None? then Failure(IllegalArgument(MensajeSinUsuario))
    else Persistir(s, t)
  }

  /** `crearTarea(t)` as written: the body goes to `save` unchanged, so a body that
      carries the id of an existing task overwrites that task. */
  function CrearTareaAsWritten(s: Store, t: Tarea): (r: Result<(Store, Tarea), Error>)
    requires Valid(s)
    ensures t.usuario.None? ==> r == Failure(IllegalArgument(MensajeSinUsuario))
    ensures r.Success? ==> Valid(r.value.0)
    ensures !(t.id.Some? && t.id.value in s.tareas) ==> r == CrearTarea(s, t)
    ensures t.usuario.Some? && t.id.Some? && t.id.value in s.tareas ==>
      && (r.Failure? <==> !TituloValido(t))
      && (r.Success? ==> r.value == (s.(tareas := s.tareas[t.id.value := t]), t))
  {
    if t.usuario.None? then Failure(IllegalArgument(MensajeSinUsuario))
    else SaveAsWritten(s, t)
  }

  /** A user who names another user's task id in the creation body takes that
      task over: user 2 ends up owning task 1, which user 1 created. */
  lemma CrearTareaAsWrittenSeApropiaDeTareaAjena()
    ensures
      var ajena := Tarea(Some(1), "Pagar alquiler", None, false, 0, None, ALTA, Some(1), None);
      var s := Store(map[1 := ajena], 2);
      var cuerpo := Tarea(Some(1), "Mia", None, false, 5, None, BAJA, Some(2), None);
      && Valid(s)
      && CrearTareaAsWritten(s, cuerpo).Success?
      && CrearTareaAsWritten(s, cuerpo).value.0.tareas[1].usuario == Some(2)
      && FindByIdAndUsuarioId(CrearTareaAsWritten(s, cuerpo).value.0, 1, 1).None?
  {
    var ajena := Tarea(Some(1), "Pagar alquiler", None, false, 0, None, ALTA, Some(1), None);
    var s := Store(map[1 := ajena], 2);
    var cuerpo := Tarea(Some(1), "Mia", None, false, 5, None, BAJA, Some(2), None);
    assert TituloValido(cuerpo) by {
      assert cuerpo.titulo[0] == 'M';
    }
    assert TituloValido(ajena) by {
      assert ajena.titulo[0] == 'P';
    }
  }

  /** `obtenerTareaPorIdYUsuario(id, u)`. */
  function ObtenerTareaPorIdYUsuario(s: Store, id: Id, u: Id): (r: Option<Tarea>)
    requires Valid(s)
    ensures r.Some? <==> id in s.tareas && DeUsuario(s.tareas[id], u)
    ensures r.Some? ==> r.value == s.tareas[id]
  {
    FindByIdAndUsuarioId(s, id, u)
  }

  /** `obtenerTareaPorId(id)`: the unscoped lookup kept for internal use. */
  function ObtenerTareaPorId(s: Store, id: Id): (r: Option<Tarea>)
    requires Valid(s)
    ensures r.Some? <==> id in s.tareas
    ensures r.Some? ==> r.value == s.tareas[id]
  {
    FindById(s, id)
  }

  /** `obtenerTareasPendientesPorUsuario(u)`. */
  function ObtenerTareasPendientesPorUsuario(s: Store, u: Id): (r: seq<Tarea>)
    requires Valid(s)
    ensures forall i :: 0 <= i < |r| ==> Almacenada(s, r[i]) && DeUsuario(r[i], u) && !r[i].completada
    ensures forall k :: k in s.tareas && DeUsuario(s.tareas[k], u) && !s.tareas[k].completada ==> s.tareas[k] in r
  {
    FindByUsuarioIdAndCompletada(s, u, false)
  }

  /** `obtenerTareasCompletadasPorUsuario(u)`. */
  function ObtenerTareasCompletadasPorUsuario(s: Store, u: Id): (r: seq<Tarea>)
    requires Valid(s)
    ensures forall i :: 0 <= i < |r| ==> Almacenada(s, r[i]) && DeUsuario(r[i], u) && r[i].completada
    ensures forall k :: k in s.tareas && DeUsuario(s.tareas[k], u) && s.tareas[k].completada ==> s.tareas[k] in r
  {
    FindByUsuarioIdAndCompletada(s, u, true)
  }

  /** `obtenerTareasPorUsuarioYCategoria(u, c)`. */
  function ObtenerTareasPorUsuarioYCategoria(s: Store, u: Id, c: Id): (r: seq<Tarea>)
    requires Valid(s)
    ensures forall i :: 0 <= i < |r| ==> Almacenada(s, r[i]) && DeUsuario(r[i], u) && r[i].categoria == Some(c)
    ensures forall k :: k in s.tareas && DeUsuario(s.tareas[k], u) && s.tareas[k].categoria == Some(c) ==> s.tareas[k] in r
  {
    FindByUsuarioIdAndCategoriaId(s, u, c)
  }

  /** `obtenerTareasPorPrioridadYUsuario(u, p)`. */
  function ObtenerTareasPorPrioridadYUsuario(s: Store, u: Id, p: Prioridad): (r: seq<Tarea>)
    requires Valid(s)
    ensures forall i :: 0 <= i < |r| ==> Almacenada(s, r[i]) && DeUsuario(r[i], u) && r[i].prioridad == p
    ensures forall k :: k in s.tareas && DeUsuario(s.tareas[k], u) && s.tareas[k].prioridad == p ==> s.tareas[k] in r
  {
    FindByUsuarioIdAndPrioridad(s, u, p)
  }

  /** `buscarTareasPorTituloYUsuario(u, q)`. */
  function BuscarTareasPorTituloYUsuario(s: Store, u: Id, q: string): (r: seq<Tarea>)
    requires Valid(s)
    ensures forall i :: 0 <= i < |r| ==> Almacenada(s, r[i]) && DeUsuario(r[i], u) && Text.ContainsIgnoreCase(r[i].titulo, q)
    ensures forall k :: k in s.tareas && DeUsuario(s.tareas[k], u) && Text.ContainsIgnoreCase(s.tareas[k].titulo, q) ==> s.tareas[k] in r
  {
    FindByUsuarioIdAndTituloContaining(s, u, q)
  }

  /** With the empty query the title search returns every task of the owner. */
  lemma BuscarVaciaDevuelveTodas(s: Store, u: Id)
    requires Valid(s)
    ensures forall k :: k in s.tareas && DeUsuario(s.tareas[k], u) ==> s.tareas[k] in BuscarTareasPorTituloYUsuario(s, u, [])
  {
    forall k | k in s.tareas && DeUsuario(s.tareas[k], u)
      ensures s.tareas[k] in BuscarTareasPorTituloYUsuario(s, u, [])
    {
      Text.ContainsIgnoreCaseEmpty(s.tareas[k].titulo);
    }
  }

  /** `obtenerTareasProximasAVencer(u)`: pending, dated, ascending due date. */
  function ObtenerTareasProximasAVencer(s: Store, u: Id): (r: seq<Tarea>)
    requires Valid(s)
    ensures forall i :: 0 <= i < |r| ==>
      Almacenada(s, r[i]) && DeUsuario(r[i], u) && !r[i].completada && r[i].fechaVencimiento.Some?
    ensures forall i, j :: 0 <= i < j < |r| ==>
      r[i].fechaVencimiento.value <= r[j].fechaVencimiento.value
    ensures forall k :: k in s.tareas && DeUsuario(s.tareas[k], u) && ProximaAVencer(s.tareas[k]) ==> s.tareas[k] in r
  {
    FindTareasProximasAVencerByUsuario(s, u)
  }

  /** `contarTareasPendientesPorUsuario(u)`. */
  function ContarTareasPendientesPorUsuario(s: Store, u: Id): (n: nat)
    requires Valid(s)
    ensures n == |ObtenerTareasPendientesPorUsuario(s, u)|
  {
    CountEsLongitud(s, u);
    CountByUsuarioIdAndCompletadaFalse(s, u)
  }

  /** The fields an update copies from the request body; id, owner and creation
      instant stay as stored. */
  function AplicarCambios(actual: Tarea, cambios: Tarea): (t: Tarea)
    ensures t.id == actual.id && t.usuario == actual.usuario && t.fechaCreacion == actual.fechaCreacion
    ensures t.titulo == cambios.titulo && t.descripcion == cambios.descripcion
    ensures t.completada == cambios.completada && t.fechaVencimiento == cambios.fechaVencimiento
    ensures t.prioridad == cambios.prioridad && t.categoria == cambios.categoria
  {
    actual.(titulo := cambios.titulo, descripcion := cambios.descripcion,
            completada := cambios.completada, fechaVencimiento := cambios.fechaVencimiento,
            prioridad := cambios.prioridad, categoria := cambios.categoria)
  }

  /** `actualizarTarea(id, cambios, u)`: fails not-found on a missing or foreign
      id, otherwise rewrites that one task and nothing else. */
  function ActualizarTarea(s: Store, id: Id, cambios: Tarea, u: Id): (r: Result<(Store, Tarea), Error>)
    requires Valid(s)
    ensures ObtenerTareaPorIdYUsuario(s, id, u).None? ==> r == Failure(NoEncontrada(id))
    ensures ObtenerTareaPorIdYUsuario(s, id, u).Some? ==> (r.Failure? <==> !TituloValido(cambios))
    ensures r.Success? ==>
      var (s2, t) := r.value;
      && Valid(s2) && (ConDueno(s) ==> ConDueno(s2))
      && id in s.tareas && DeUsuario(s.tareas[id], u)
      && t == AplicarCambios(s.tareas[id], cambios)
      && s2.tareas == s.tareas[id := t]
  {
    match FindByIdAndUsuarioId(s, id, u)
    case None => Failure(NoEncontrada(id))
    case Some(actual) =>
      var t := AplicarCambios(actual, cambios);
      match Guardar(s, t)
      case Success(s2) => Success((s2, t))
      case Failure(e) => Failure(e)
  }

  /** The owner-checked completion-flag transition shared by both toggles. */
  function CambiarEstado(s: Store, id: Id, u: Id, completada: bool): (r: Result<(Store, Tarea), Error>)
    requires Valid(s)
    ensures ObtenerTareaPorIdYUsuario(s, id, u).None? <==> r.Failure?
    ensures r.Failure? ==> r.error == NoEncontrada(id)
    ensures r.Success? ==>
      var (s2, t) := r.value;
      && Valid(s2) && (ConDueno(s) ==> ConDueno(s2))
      && id in s.tareas
      && t == s.tareas[id].(completada := completada)
      && s2.tareas == s.tareas[id := t]
  {
    match FindByIdAndUsuarioId(s, id, u)
    case None => Failure(NoEncontrada(id))
    case Some(actual) =>
      var t := actual.(completada := completada);
      match Guardar(s, t)
      case Success(s2) => Success((s2, t))
      case Failure(e) => Failure(e)
  }

  /** `marcarComoCompletada(id, u)`. */
  function MarcarComoCompletada(s: Store, id: Id, u: Id): (r: Result<(Store, Tarea), Error>)
    requires Valid(s)
    ensures ObtenerTareaPorIdYUsuario(s, id, u).None? <==> r.Failure?
    ensures r.Failure? ==> r.error == NoEncontrada(id)
    ensures r.Success? ==>
      var (s2, t) := r.value;
      && Valid(s2) && id in s.tareas && t.completada
      && t == s.tareas[id].(completada := true)
      && s2.tareas == s.tareas[id := t]
  {
    CambiarEstado(s, id, u, true)
  }

  /** `marcarComoPendiente(id, u)`. */
  function MarcarComoPendiente(s: Store, id: Id, u: Id): (r: Result<(Store, Tarea), Error>)
    requires Valid(s)
    ensures ObtenerTareaPorIdYUsuario(s, id, u).None? <==> r.Failure?
    ensures r.Failure? ==> r.error == NoEncontrada(id)
    ensures r.Success? ==>
      var (s2, t) := r.value;
      && Valid(s2) && id in s.tareas && !t.completada
      && t == s.tareas[id].(completada := false)
      && s2.tareas == s.tareas[id := t]
  {
    CambiarEstado(s, id, u, false)
  }

  /** `eliminarTarea(id, u)`: removes exactly the owner-checked task. */
  function EliminarTarea(s: Store, id: Id, u: Id): (r: Result<Store, Error>)
    requires Valid(s)
    ensures ObtenerTareaPorIdYUsuario(s, id, u).None? <==> r.Failure?
    ensures r.Failure? ==> r.error == NoEncontrada(id)
    ensures r.Success? ==>
      && Valid(r.value) && (ConDueno(s) ==> ConDueno(r.value))
      && id in s.tareas && r.value.tareas == s.tareas - {id}
  {
    match FindByIdAndUsuarioId(s, id, u)
    case None => Failure(NoEncontrada(id))
    case Some(_) => Success(Borrar(s, id))
  }

  /** Ownership isolation: another user can neither see, update, toggle nor
      delete a task, and gets the same not-found as for a missing id; the owner
      can see it. */
  lemma AislamientoDePropietario(s: Store, id: Id, dueno: Id, otro: Id, cambios: Tarea)
    requires Valid(s)
    requires id in s.tareas && DeUsuario(s.tareas[id], dueno) && otro != dueno
    ensures ObtenerTareaPorIdYUsuario(s, id, otro).None?
    ensures ActualizarTarea(s, id, cambios, otro) == Failure(NoEncontrada(id))
    ensures MarcarComoCompletada(s, id, otro) == Failure(NoEncontrada(id))
    ensures MarcarComoPendiente(s, id, otro) == Failure(NoEncontrada(id))
    ensures EliminarTarea(s, id, otro) == Failure(NoEncontrada(id))
    ensures ObtenerTareaPorIdYUsuario(s, id, dueno) == Some(s.tareas[id])
  {
  }

  /** A missing id and a foreign id fail identically. */
  lemma AusenteYAjenaIndistinguibles(s: Store, ausente: Id, ajena: Id, u: Id)
    requires Valid(s)
    requires ausente !in s.tareas
    requires ajena in s.tareas && !DeUsuario(s.tareas[ajena], u)
    ensures EliminarTarea(s, ausente, u) == Failure(NoEncontrada(ausente))
    ensures EliminarTarea(s, ajena, u) == Failure(NoEncontrada(ajena))
    ensures MarcarComoCompletada(s, ausente, u).Failure? && MarcarComoCompletada(s, ajena, u).Failure?
  {
  }

  /** Completing twice leaves the same store as completing once, and the second
      call succeeds. */
  lemma CompletarIdempotente(s: Store, id: Id, u: Id)
    requires Valid(s)
    requires MarcarComoCompletada(s, id, u).Success?
    ensures var s1 := MarcarComoCompletada(s, id, u).value.0;
      && MarcarComoCompletada(s1, id, u).Success?
      && MarcarComoCompletada(s1, id, u).value.0 == s1
  {
    var s1 := MarcarComoCompletada(s, id, u).value.0;
    assert s1.tareas[id].completada;
    assert s1.tareas[id := s1.tareas[id].(completada := true)] == s1.tareas;
  }

  /** Completing then reopening a task restores its previous state when it was
      pending. */
  lemma CompletarLuegoReabrir(s: Store, id: Id, u: Id)
    requires Valid(s)
    requires id in s.tareas && DeUsuario(s.tareas[id], u) && !s.tareas[id].completada
    ensures var s1 := MarcarComoCompletada(s, id, u).value.0;
      MarcarComoPendiente(s1, id, u).Success?
      && MarcarComoPendiente(s1, id, u).value.0.tareas == s.tareas
  {
    var s1 := MarcarComoCompletada(s, id, u).value.0;
    var s2 := MarcarComoPendiente(s1, id, u).value.0;
    assert s2.tareas[id] == s.tareas[id];
  }

  /** Creating a task and reading it back as its owner returns the task as given,
      pending when the body was, under its new id. */
  lemma CrearLuegoObtener(s: Store, t: Tarea)
    requires Valid(s)
    requires CrearTarea(s, t).Success?
    ensures var (s2, creada) := CrearTarea(s, t).value;
      && t.usuario.Some?
      && ObtenerTareaPorIdYUsuario(s2, creada.id.value, t.usuario.value) == Some(t.(id := creada.id))
  {
  }

  /** Every listing of the service is scoped to one owner: a task on any of the
      eight listings is stored and belongs to the user the listing was asked for. */
  lemma ListadosSoloDelPropietario(s: Store, u: Id, page: nat, size: Tamano, c: Clave,
                                   cat: Id, p: Prioridad, q: string)
    requires Valid(s)
    ensures forall t :: t in ObtenerTodasTareasPorUsuarioPaginado(s, u, page, size, c) ==> DeUsuario(t, u) && Almacenada(s, t)
    ensures forall t :: t in ObtenerTareasPorUsuario(s, u) ==> DeUsuario(t, u) && Almacenada(s, t)
    ensures forall t :: t in ObtenerTareasPendientesPorUsuario(s, u) ==> DeUsuario(t, u) && Almacenada(s, t)
    ensures forall t :: t in ObtenerTareasCompletadasPorUsuario(s, u) ==> DeUsuario(t, u) && Almacenada(s, t)
    ensures forall t :: t in ObtenerTareasPorUsuarioYCategoria(s, u, cat) ==> DeUsuario(t, u) && Almacenada(s, t)
    ensures forall t :: t in ObtenerTareasPorPrioridadYUsuario(s, u, p) ==> DeUsuario(t, u) && Almacenada(s, t)
    ensures forall t :: t in BuscarTareasPorTituloYUsuario(s, u, q) ==> DeUsuario(t, u) && Almacenada(s, t)
    ensures forall t :: t in ObtenerTareasProximasAVencer(s, u) ==> DeUsuario(t, u) && Almacenada(s, t)
  {
  }
}

=== FILE: tareas_list.dfy ===
/** The pure logic of the task-list page: the conjunctive client-side filter over
    the loaded page of tasks, the five-page navigation window, and the category
    label lookups. */
module TareasList {
  import opened Wrappers
  import opened Tabla
  import opened Tareas
  import opened Listas
  import TareaController
  import CategoriaService
  import Text

  type TareaDTO = TareaController.TareaDTO
  type CategoriaDTO = CategoriaService.CategoriaDTO

  /** The page's four filter inputs. Each select holds `'todas'` or an option value. */
  datatype Filtros = Filtros(estado: string, categoria: string, prioridad: string, busqueda: string)

  const Todas: string := "todas"

  /** The filters after `limpiarFiltros()`. */
  const SinFiltros: Filtros := Filtros(Todas, Todas, Todas, "")

  predicate CoincideEstado(filtro: string, t: TareaDTO) {
    || filtro == Todas
    || (filtro == "completadas" && t.completada)
    || (filtro == "pendientes" && !t.completada)
  }

  /** The category select holds the id as text and is compared with the task's
      category id printed in decimal; a task without a category never matches. */
  predicate CoincideCategoria(filtro: string, t: TareaDTO) {
    filtro == Todas || (t.categoriaId.Some? && Text.NatToString(t.categoriaId.value) == filtro)
  }

  predicate CoincidePrioridad(filtro: string, t: TareaDTO) {
    filtro == Todas || NombrePrioridad(t.prioridad) == filtro
  }

  /** An empty search matches everything; otherwise the lower-cased text must occur
      in the lower-cased title or in a present description. */
  predicate CoincideBusqueda(q: string, t: TareaDTO) {
    || q == []
    || Text.ContainsIgnoreCase(t.titulo, q)
    || (t.descripcion.Some? && Text.ContainsIgnoreCase(t.descripcion.value, q))
  }

  function PorEstado(e: string): TareaDTO -> bool {
    (t: TareaDTO) => CoincideEstado(e, t)
  }

  function PorCategoria(c: string): TareaDTO -> bool {
    (t: TareaDTO) => CoincideCategoria(c, t)
  }

  function PorPrioridad(p: string): TareaDTO -> bool {
    (t: TareaDTO) => CoincidePrioridad(p, t)
  }

  function PorBusqueda(q: string): TareaDTO -> bool {
    (t: TareaDTO) => CoincideBusqueda(q, t)
  }

  function PorFiltros(f: Filtros): TareaDTO -> bool {
    (t: TareaDTO) =>
      CoincideEstado(f.estado, t) && CoincideCategoria(f.categoria, t)
      && CoincidePrioridad(f.prioridad, t) && CoincideBusqueda(f.busqueda, t)
  }

  /** `tareasFiltradas`: the loaded tasks passing all four filters, in page order. */
  function TareasFiltradas(tareas: seq<TareaDTO>, f: Filtros): (r: seq<TareaDTO>)
    ensures EsSubsecuencia(r, tareas)
    ensures forall i :: 0 <= i < |r| ==>
      && CoincideEstado(f.estado, r[i]) && CoincideCategoria(f.categoria, r[i])
      && CoincidePrioridad(f.prioridad, r[i]) && CoincideBusqueda(f.busqueda, r[i])
    ensures forall i :: 0 <= i < |tareas| && PorFiltros(f)(tareas[i]) ==> tareas[i] in r
  {
    FiltrarEsSubsecuencia(tareas, PorFiltros(f));
    Filtrar(tareas, PorFiltros(f))
  }

  /** With every select on 'todas' and no search text, nothing is filtered out. */
  lemma SinFiltrosDevuelveTodas(tareas: seq<TareaDTO>)
    ensures TareasFiltradas(tareas, SinFiltros) == tareas
  {
    FiltrarTodos(tareas, PorFiltros(SinFiltros));
  }

  /** The filter is the conjunction of the four: applying them one after another
      gives the same list. */
  lemma FiltrosEnCadena(tareas: seq<TareaDTO>, f: Filtros)
    ensures TareasFiltradas(tareas, f) ==
      Filtrar(Filtrar(Filtrar(Filtrar(tareas, PorEstado(f.estado)), PorCategoria(f.categoria)),
                      PorPrioridad(f.prioridad)), PorBusqueda(f.busqueda))
  {
    var ec := (t: TareaDTO) => CoincideEstado(f.estado, t) && CoincideCategoria(f.categoria, t);
    var ecp := (t: TareaDTO) => ec(t) && CoincidePrioridad(f.prioridad, t);
    FiltrarConjuncion(tareas, PorEstado(f.estado), PorCategoria(f.categoria), ec);
    FiltrarConjuncion(tareas, ec, PorPrioridad(f.prioridad), ecp);
    FiltrarConjuncion(tareas, ecp, PorBusqueda(f.busqueda), PorFiltros(f));
  }

  /** With the other filters open, 'completadas' and 'pendientes' split the page:
      together they hold as many tasks as the page. */
  lemma EstadosParticionan(tareas: seq<TareaDTO>)
    ensures |TareasFiltradas(tareas, SinFiltros.(estado := "completadas"))|
          + |TareasFiltradas(tareas, SinFiltros.(estado := "pendientes"))| == |tareas|
  {
    FiltrarComplemento(tareas, PorFiltros(SinFiltros.(estado := "completadas")),
                       PorFiltros(SinFiltros.(estado := "pendientes")));
  }

  /** An estado value other than the three options matches nothing. */
  lemma EstadoDesconocidoVacio(tareas: seq<TareaDTO>, f: Filtros)
    requires f.estado != Todas && f.estado != "completadas" && f.estado != "pendientes"
    ensures TareasFiltradas(tareas, f) == []
  {
    FiltrarNinguno(tareas, PorFiltros(f));
  }

  /** Selecting category `c` keeps exactly the tasks filed under `c`. */
  lemma FiltroCategoriaExacto(tareas: seq<TareaDTO>, c: Id, t: TareaDTO)
    requires t in tareas
    ensures t in TareasFiltradas(tareas, SinFiltros.(categoria := Text.NatToString(c))) <==>
      t.categoriaId == Some(c)
  {
    var f := SinFiltros.(categoria := Text.NatToString(c));
    var r := TareasFiltradas(tareas, f);
    assert f.categoria != Todas by {
      assert f.categoria[0] <= '9' < Todas[0];
    }
    if t in r {
      var j :| 0 <= j < |r| && r[j] == t;
      assert CoincideCategoria(f.categoria, t);
      Text.NatToStringInyectiva(t.categoriaId.value, c);
    }
    if t.categoriaId == Some(c) {
      var i :| 0 <= i < |tareas| && tareas[i] == t;
      assert PorFiltros(f)(tareas[i]);
    }
  }

  /** `paginas`: consecutive page numbers within [0, totalPages - 1], at most five;
      when the current page is a real page, the window holds it and is as long as
      it can be. */
  method Paginas(currentPage: int, totalPages: int) returns (pages: seq<int>)
    ensures |pages| <= 5
    ensures forall i :: 0 <= i < |pages| ==> 0 <= pages[i] < totalPages
    ensures forall i :: 0 < i < |pages| ==> pages[i] == pages[i - 1] + 1
    ensures totalPages <= 0 ==> pages == []
    ensures 0 <= currentPage < totalPages ==>
      currentPage in pages && |pages| == (if totalPages < 5 then totalPages else 5)
  {
    var startPage := if currentPage - 2 > 0 then currentPage - 2 else 0;
    var endPage := if totalPages - 1 < startPage + 4 then totalPages - 1 else startPage + 4;
    if endPage - startPage + 1 < 5 {
      startPage := if endPage - 4 > 0 then endPage - 4 else 0;
    }
    pages := [];
    var i := startPage;
    while i <= endPage
      invariant startPage <= i <= (if endPage + 1 > startPage then endPage + 1 else startPage)
      invariant |pages| == i - startPage
      invariant forall j :: 0 <= j < |pages| ==> pages[j] == startPage + j
      decreases endPage - i
    {
      pages := pages + [i];
      i := i + 1;
    }
    if 0 <= currentPage < totalPages {
      assert startPage <= currentPage <= endPage;
      assert pages[currentPage - startPage] == currentPage;
    }
  }

  /** `cambiarPagina(page)`: the page to reload, if it is a real page. */
  function CambiarPagina(page: int, totalPages: int): (recarga: Option<nat>)
    ensures recarga.Some? <==> 0 <= page < totalPages
    ensures recarga.Some? ==> recarga.value == page
  {
    if page >= 0 && page < totalPages then Some(page) else None
  }

  /** The index of the first category whose id is `id`. */
  function BuscarCategoria(cats: seq<CategoriaDTO>, id: Id): (r: Option<nat>)
    ensures r.Some? ==>
      && r.value < |cats| && cats[r.value].id == Some(id)
      && forall j :: 0 <= j < r.value ==> cats[j].id != Some(id)
    ensures r.None? ==> forall j :: 0 <= j < |cats| ==> cats[j].id != Some(id)
  {
    if cats == [] then None
    else if cats[0].id == Some(id) then Some(0)
    else match BuscarCategoria(cats[1..], id)
      case None => None
      case Some(i) => Some(i + 1)
  }

  const SinCategoria: string := "Sin categoría"
  const ColorPorDefecto: string := "#95a5a6"

  /** `getNombreCategoria(id)`: the name of the first loaded category with that id;
      a missing or zero id, or an id not loaded, gives 'Sin categoría'. */
  function GetNombreCategoria(cats: seq<CategoriaDTO>, categoriaId: Option<Id>): (nombre: string)
    ensures categoriaId.None? || categoriaId == Some(0) ==> nombre == SinCategoria
    ensures categoriaId.Some? && categoriaId.value != 0 ==>
      match BuscarCategoria(cats, categoriaId.value)
      case None => nombre == SinCategoria
      case Some(i) => nombre == cats[i].nombre
  {
    if categoriaId.None? || categoriaId.value == 0 then SinCategoria
    else match BuscarCategoria(cats, categoriaId.value)
      case None => SinCategoria
      case Some(i) => cats[i].nombre
  }

  /** `getColorCategoria(id)`: as the name lookup, with '#95a5a6' as the fallback. */
  function GetColorCategoria(cats: seq<CategoriaDTO>, categoriaId: Option<Id>): (color: string)
    ensures categoriaId.None? || categoriaId == Some(0) ==> color == ColorPorDefecto
    ensures categoriaId.Some? && categoriaId.value != 0 ==>
      match BuscarCategoria(cats, categoriaId.value)
      case None => color == ColorPorDefecto
      case Some(i) => color == cats[i].color
  {
    if categoriaId.None? || categoriaId.value == 0 then ColorPorDefecto
    else match BuscarCategoria(cats, categoriaId.value)
      case None => ColorPorDefecto
      case Some(i) => cats[i].color
  }

  /** The name and the colour shown for a task come from the same category, and
      a label without a loaded category falls back in both. */
  lemma NombreYColorDeLaMismaCategoria(cats: seq<CategoriaDTO>, c: Id)
    requires c != 0
    ensures (GetNombreCategoria(cats, Some(c)) == SinCategoria && GetColorCategoria(cats, Some(c)) == ColorPorDefecto)
         || exists i :: 0 <= i < |cats| && cats[i].id == Some(c)
              && GetNombreCategoria(cats, Some(c)) == cats[i].nombre
              && GetColorCategoria(cats, Some(c)) == cats[i].color
  {
  }
}

=== FILE: text.dfy ===
/** String helpers shared by the search operations: lower-casing, substring
    containment and the blank test of bean validation's `@NotBlank`. */
module Text {

  /** Lower-cases one character; only the ASCII letters A-Z are mapped. */
  function LowerChar(c: char): (d: char)
    ensures 'A' <= c <= 'Z' ==> d as int == c as int + 32
    ensures !('A' <= c <= 'Z') ==> d == c
  {
    if 'A' <= c <= 'Z' then (c as int + 32) as char else c
  }

  /** `String.toLowerCase()` / SQL `LOWER(...)` restricted to ASCII. */
  function ToLower(s: string): (r: string)
    ensures |r| == |s|
    ensures forall i :: 0 <= i < |s| ==> r[i] == LowerChar(s[i])
  {
    if s == [] then [] else [LowerChar(s[0])] + ToLower(s[1..])
  }

  /** Lower-casing twice changes nothing more than lower-casing once. */
  lemma ToLowerIdempotent(s: string)
    ensures ToLower(ToLower(s)) == ToLower(s)
  {
  }

  /** `s` starts with `p`. */
  predicate StartsWith(s: string, p: string) {
    |p| <= |s| && s[..|p|] == p
  }

  /** `hay.contains(needle)`, computed by trying every start position. */
  function Contains(hay: string, needle: string): (b: bool)
    decreases |hay|
  {
    if StartsWith(hay, needle) then true
    else if hay == [] then false
    else Contains(hay[1..], needle)
  }

  /** The reference meaning of containment: some window of `hay` equals `needle`. */
  ghost predicate OccursAt(hay: string, needle: string, i: int) {
    0 <= i && i + |needle| <= |hay| && hay[i..i + |needle|] == needle
  }

  /** `Contains` finds a window exactly when one exists. */
  lemma {:induction false} ContainsIff(hay: string, needle: string)
    ensures Contains(hay, needle) <==> exists i :: OccursAt(hay, needle, i)
    decreases |hay|
  {
    if StartsWith(hay, needle) {
      assert OccursAt(hay, needle, 0);
    } else if hay == [] {
      assert |needle| > 0;
    } else {
      ContainsIff(hay[1..], needle);
      forall i | OccursAt(hay[1..], needle, i)
        ensures OccursAt(hay, needle, i + 1)
      {
        assert hay[1..][i..i + |needle|] == hay[i + 1..i + 1 + |needle|];
      }
      forall i | OccursAt(hay, needle, i)
        ensures OccursAt(hay[1..], needle, i - 1)
      {
        assert hay[..|needle|] == hay[0..|needle|];
        assert hay[1..][i - 1..i - 1 + |needle|] == hay[i..i + |needle|];
      }
    }
  }

  /** The empty string occurs in every string. */
  lemma ContainsEmpty(hay: string)
    ensures Contains(hay, [])
  {
    assert StartsWith(hay, []);
  }

  /** Case-insensitive containment: `LOWER(hay) LIKE LOWER('%' || needle || '%')`
      and `hay.toLowerCase().includes(needle.toLowerCase())`. */
  function ContainsIgnoreCase(hay: string, needle: string): (b: bool)
  {
    Contains(ToLower(hay), ToLower(needle))
  }

  /** An empty query matches every string. */
  lemma ContainsIgnoreCaseEmpty(hay: string)
    ensures ContainsIgnoreCase(hay, [])
  {
    ContainsEmpty(ToLower(hay));
  }

  /** `@NotBlank` rejects a string whose characters are all at most ' '
      (what remains after `trim()` is empty). A null string is modelled as "". */
  predicate IsBlank(s: string) {
    forall i :: 0 <= i < |s| ==> s[i] <= ' '
  }

  /** The decimal digit of `d`. */
  function Digito(d: nat): (c: char)
    requires d < 10
    ensures '0' <= c <= '9' && c as int - '0' as int == d
  {
    (d + '0' as int) as char
  }

  /** `n.toString()` for a non-negative integer: its decimal digits, no leading zeros. */
  function NatToString(n: nat): (s: string)
    ensures |s| >= 1
    ensures forall i :: 0 <= i < |s| ==> '0' <= s[i] <= '9'
    ensures (|s| == 1) == (n < 10)
    decreases n
  {
    if n < 10 then [Digito(n)] else NatToString(n / 10) + [Digito(n % 10)]
  }

  /** Different numbers print differently, so comparing printed ids compares ids. */
  lemma {:induction false} NatToStringInyectiva(a: nat, b: nat)
    requires NatToString(a) == NatToString(b)
    ensures a == b
    decreases a
  {
    var sa := NatToString(a);
    if a >= 10 && b >= 10 {
      assert sa[|sa| - 1] == Digito(a % 10);
      assert NatToString(b)[|sa| - 1] == Digito(b % 10);
      assert NatToString(a / 10) == sa[..|sa| - 1] == NatToString(b / 10);
      NatToStringInyectiva(a / 10, b / 10);
    }
  }
}

=== FILE: usuario_controller.dfy ===
/** The login and registration endpoints. Token signing is an opaque function of
    the username; responses carry a password-free projection of the user. */
module UsuarioController {
  import opened Wrappers
  import opened Tabla
  import opened Errores
  import opened Respuestas
  import opened Usuarios
  import opened UsuarioRepository
  import UsuarioService

  /** The user transfer object: it has no password field. */
  datatype UsuarioDTO = UsuarioDTO(id: Option<Id>, username: string, email: string)

  /** The body of a successful login. */
  datatype Sesion = Sesion(token: string, mensaje: string, usuario: UsuarioDTO)

  const MensajeLoginExitoso: string := "Login exitoso"
  const MensajeCredencialesInvalidas: string := "Credenciales inválidas"
  const MensajeUsuarioNoEncontrado: string := "Usuario no encontrado"

  /** The projection sent to clients. */
  function ProyectarUsuario(u: Usuario): (d: UsuarioDTO)
    ensures d.id == u.id && d.username == u.username && d.email == u.email
  {
    UsuarioDTO(u.id, u.username, u.email)
  }

  /** The projection forgets the password and the account flags: two users that
      differ only there project identically. */
  lemma ProyeccionSinPassword(u: Usuario, password: string, enabled: bool, fecha: int)
    ensures ProyectarUsuario(u) == ProyectarUsuario(u.(password := password, enabled := enabled, fechaCreacion := fecha))
  {
  }

  /** `POST /api/usuarios/login`. `issue` stands for the token signer. */
  function Login(s: Store, username: string, password: string, issue: string -> string): (r: Respuesta<Sesion>)
    requires Valid(s)
    ensures r.Ok? <==> UsuarioService.VerificarCredenciales(s, username, password)
    ensures !r.Ok? ==> r == PeticionIncorrecta(CuerpoError(MensajeCredencialesInvalidas))
    ensures r.Ok? ==>
      && r.cuerpo.token == issue(username)
      && r.cuerpo.mensaje == MensajeLoginExitoso
      && r.cuerpo.usuario.username == username
      && (exists k :: k in s.usuarios && s.usuarios[k].password == password
                       && r.cuerpo.usuario == ProyectarUsuario(s.usuarios[k]))
  {
    if UsuarioService.VerificarCredenciales(s, username, password) then
      match UsuarioService.ObtenerUsuarioPorUsername(s, username)
      case Some(u) =>
        assert u == s.usuarios[u.id.value];
        Ok(Sesion(issue(username), MensajeLoginExitoso, ProyectarUsuario(u)))
      case None => PeticionIncorrecta(CuerpoError(MensajeUsuarioNoEncontrado))
    else PeticionIncorrecta(CuerpoError(MensajeCredencialesInvalidas))
  }

  /** A token is issued exactly for a stored username whose password matches. */
  lemma LoginEmiteTokenSiiCredenciales(s: Store, username: string, password: string, issue: string -> string)
    requires Valid(s)
    ensures Login(s, username, password, issue).Ok? <==>
      exists k :: k in s.usuarios && s.usuarios[k].username == username && s.usuarios[k].password == password
  {
    UsuarioService.VerificarCredencialesIff(s, username, password);
  }

  /** The exception message a failed registration reports. */
  function MensajeDe(e: Error): string {
    match e
    case EntityNotFound(entidad, _) => entidad
    case IllegalArgument(m) => m
    case Runtime(m) => m
    case ConstraintViolation(m) => m
    case DataIntegrityViolation(c) => c
  }

  /** `POST /api/usuarios/registro`: the created user's projection, or a bad
      request carrying the exception's message. */
  function RegistrarUsuario(s: Store, u: Usuario): (r: (Store, Respuesta<UsuarioDTO>))
    requires Valid(s)
    ensures !r.1.Excepcion?
    ensures r.1.PeticionIncorrecta? ==> r.0 == s
    ensures ExistsByUsername(s, u.username) ==>
      r == (s, PeticionIncorrecta(CuerpoError(UsuarioService.MensajeUsernameEnUso)))
    ensures !ExistsByUsername(s, u.username) && ExistsByEmail(s, u.email) ==>
      r == (s, PeticionIncorrecta(CuerpoError(UsuarioService.MensajeEmailEnUso)))
    ensures r.1.Ok? <==> UsuarioService.CrearUsuario(s, u).Success?
    ensures !ExistsByUsername(s, u.username) && !ExistsByEmail(s, u.email) ==> (r.1.Ok? <==> CamposValidos(u))
    ensures r.1.Ok? ==>
      && Valid(r.0)
      && r.1.cuerpo.username == u.username && r.1.cuerpo.email == u.email
      && r.1.cuerpo.id.Some? && r.1.cuerpo.id.value !in s.usuarios
      && r.0.usuarios == s.usuarios[r.1.cuerpo.id.value := u.(id := r.1.cuerpo.id)]
  {
    match UsuarioService.CrearUsuario(s, u)
    case Failure(e) => (s, PeticionIncorrecta(CuerpoError(MensajeDe(e))))
    case Success((s2, creado)) => (s2, Ok(ProyectarUsuario(creado)))
  }

  /** `POST /api/usuarios/registro` as the source runs it, on `crearUsuario` as
      written: after both checks pass, a body whose id names a stored user
      overwrites that account. Any other body registers as by `RegistrarUsuario`. */
  function RegistrarUsuarioAsWritten(s: Store, u: Usuario): (r: (Store, Respuesta<UsuarioDTO>))
    requires Valid(s)
    ensures !r.1.Excepcion?
    ensures r.1.PeticionIncorrecta? ==> r.0 == s
    ensures ExistsByUsername(s, u.username) ==>
      r == (s, PeticionIncorrecta(CuerpoError(UsuarioService.MensajeUsernameEnUso)))
    ensures !ExistsByUsername(s, u.username) && ExistsByEmail(s, u.email) ==>
      r == (s, PeticionIncorrecta(CuerpoError(UsuarioService.MensajeEmailEnUso)))
    ensures r.1.Ok? ==> Valid(r.0)
    ensures !(u.id.Some? && u.id.value in s.usuarios) ==> r == RegistrarUsuario(s, u)
    ensures !ExistsByUsername(s, u.username) && !ExistsByEmail(s, u.email) && u.id.Some? && u.id.value in s.usuarios ==>
      && (r.1.Ok? <==> CamposValidos(u))
      && (r.1.Ok? ==> r.1.cuerpo.id == u.id && r.0.usuarios == s.usuarios[u.id.value := u])
  {
    match UsuarioService.CrearUsuarioAsWritten(s, u)
    case Failure(e) => (s, PeticionIncorrecta(CuerpoError(MensajeDe(e))))
    case Success((s2, creado)) => (s2, Ok(ProyectarUsuario(creado)))
  }

  /** Registration as written locks a user out: a body with a fresh username and
      email but the id of a stored account succeeds, and that account's previous
      username and password no longer pass the credential check. */
  lemma RegistroAsWrittenSobrescribeCuenta(s: Store, u: Usuario, id: Id)
    requires Valid(s)
    requires id in s.usuarios
    requires !ExistsByUsername(s, u.username) && !ExistsByEmail(s, u.email)
    requires CamposValidos(u)
    ensures var r := RegistrarUsuarioAsWritten(s, u.(id := Some(id)));
      && r.1.Ok?
      && r.1.cuerpo.id == Some(id)
      && !UsuarioService.VerificarCredenciales(r.0, s.usuarios[id].username, s.usuarios[id].password)
  {
    var v := u.(id := Some(id));
    var antes := s.usuarios[id];
    assert !ExistsByUsername(s, v.username) && !ExistsByEmail(s, v.email);
    var r := RegistrarUsuarioAsWritten(s, v);
    assert r.0.usuarios == s.usuarios[id := v];
    UsuarioService.VerificarCredencialesIff(r.0, antes.username, antes.password);
    NombreReemplazado(s.usuarios, id, v, r.0.usuarios);
  }

  /** Replacing row `id` with a username no row uses leaves no row under `id`'s
      old username, when usernames were unique. */
  lemma NombreReemplazado(us: map<Id, Usuario>, id: Id, v: Usuario, despues: map<Id, Usuario>)
    requires id in us && Unicos(us)
    requires forall k :: k in us ==> us[k].username != v.username
    requires despues == us[id := v]
    ensures forall k :: k in despues ==> despues[k].username != us[id].username
  {
    forall k | k in despues
      ensures despues[k].username != us[id].username
    {
      if k == id {
        assert us[id].username != v.username;
      } else {
        assert despues[k] == us[k];
      }
    }
  }

  /** The registration response does not depend on the password submitted, only
      on whether registration succeeded. */
  lemma RegistroNoExponePassword(s: Store, u: Usuario, otra: string)
    requires Valid(s)
    requires RegistrarUsuario(s, u).1.Ok? && RegistrarUsuario(s, u.(password := otra)).1.Ok?
    ensures RegistrarUsuario(s, u).1 == RegistrarUsuario(s, u.(password := otra)).1
  {
  }

  /** A fresh, valid registration succeeds, and logging in with the registered
      username and password then answers a session for exactly the account the
      registration returned. */
  lemma RegistrarLuegoLogin(s: Store, u: Usuario, issue: string -> string)
    requires Valid(s)
    requires !ExistsByUsername(s, u.username) && !ExistsByEmail(s, u.email) && CamposValidos(u)
    ensures var r := RegistrarUsuario(s, u);
      && r.1.Ok?
      && var sesion := Login(r.0, u.username, u.password, issue);
      && sesion.Ok?
      && sesion.cuerpo.usuario == r.1.cuerpo
      && sesion.cuerpo.token == issue(u.username)
  {
    var (s2, creado) := UsuarioService.CrearUsuario(s, u).value;
    UsuarioService.RegistrarLuegoVerificar(s, u);
    FindByUsernameUnico(s2, creado.id.value);
  }
}

=== FILE: usuario_repository.dfy ===
/** The user table. Rows live under generated ids; username and email are unique
    columns, so the table never holds two rows that share either. */
module UsuarioRepository {
  import opened Wrappers
  import opened Tabla
  import opened Errores
  import opened Usuarios

  datatype Store = Store(usuarios: map<Id, Usuario>, siguiente: Id)

  /** Two rows never share a username, nor an email. */
  predicate Unicos(m: map<Id, Usuario>) {
    forall a, b :: a in m && b in m && a != b ==>
      m[a].username != m[b].username && m[a].email != m[b].email
  }

  /** What the database guarantees of the table. */
  predicate Valid(s: Store) {
    && (forall k :: k in s.usuarios ==> k < s.siguiente && s.usuarios[k].id == Some(k))
    && (forall k :: k in s.usuarios ==> CamposValidos(s.usuarios[k]))
    && Unicos(s.usuarios)
  }

  /** `u` is the row stored under its own id. */
  predicate Almacenado(s: Store, u: Usuario) {
    u.id.Some? && u.id.value in s.usuarios && s.usuarios[u.id.value] == u
  }

  /** The stored id of a row, -1 for an unsaved user. */
  function IdDe(u: Usuario): int {
    if u.id.Some? then u.id.value else -1
  }

  function PorUsername(n: string): Usuario -> bool {
    (x: Usuario) => x.username == n
  }

  function PorEmail(e: string): Usuario -> bool {
    (x: Usuario) => x.email == e
  }

  /** The first row, in id order, satisfying `p`. */
  function Primero(s: Store, p: Usuario -> bool): (r: Option<Usuario>)
    requires Valid(s)
    ensures r.Some? ==> Almacenado(s, r.value) && p(r.value)
    ensures r.None? <==> forall k :: k in s.usuarios ==> !p(s.usuarios[k])
  {
    var ks := Claves(s.usuarios, s.siguiente, p);
    if ks == [] then
      assert forall k :: k in s.usuarios ==> !p(s.usuarios[k]) by {
        forall k | k in s.usuarios
          ensures !p(s.usuarios[k])
        {
          assert k !in ks;
        }
      }
      None
    else
      assert ks[0] in ks;
      Some(s.usuarios[ks[0]])
  }

  /** `findByUsername(n)`. */
  function FindByUsername(s: Store, n: string): (r: Option<Usuario>)
    requires Valid(s)
    ensures r.Some? ==> Almacenado(s, r.value) && r.value.username == n
    ensures r.None? <==> forall k :: k in s.usuarios ==> s.usuarios[k].username != n
  {
    Primero(s, PorUsername(n))
  }

  /** `findByEmail(e)`. */
  function FindByEmail(s: Store, e: string): (r: Option<Usuario>)
    requires Valid(s)
    ensures r.Some? ==> Almacenado(s, r.value) && r.value.email == e
    ensures r.None? <==> forall k :: k in s.usuarios ==> s.usuarios[k].email != e
  {
    Primero(s, PorEmail(e))
  }

  /** `existsByUsername(n)`: some row carries that username. */
  predicate ExistsByUsername(s: Store, n: string) {
    exists k :: k in s.usuarios && s.usuarios[k].username == n
  }

  /** `existsByEmail(e)`: some row carries that email. */
  predicate ExistsByEmail(s: Store, e: string) {
    exists k :: k in s.usuarios && s.usuarios[k].email == e
  }

  /** The existence query and the lookup agree. */
  lemma ExistsByUsernameIffFind(s: Store, n: string)
    requires Valid(s)
    ensures ExistsByUsername(s, n) <==> FindByUsername(s, n).Some?
  {
  }

  /** The existence query and the lookup agree. */
  lemma ExistsByEmailIffFind(s: Store, e: string)
    requires Valid(s)
    ensures ExistsByEmail(s, e) <==> FindByEmail(s, e).Some?
  {
  }

  /** Because usernames are unique, the lookup returns THE user with that name. */
  lemma FindByUsernameUnico(s: Store, k: Id)
    requires Valid(s) && k in s.usuarios
    ensures FindByUsername(s, s.usuarios[k].username) == Some(s.usuarios[k])
  {
  }

  /** `findById(id)`. */
  function FindById(s: Store, id: Id): (r: Option<Usuario>)
    ensures r.Some? <==> id in s.usuarios
    ensures r.Some? ==> r.value == s.usuarios[id]
  {
    if id in s.usuarios then Some(s.usuarios[id]) else None
  }

  /** `findAll()`: every row, in id order. */
  function FindAll(s: Store): (r: seq<Usuario>)
    requires Valid(s)
    ensures forall i :: 0 <= i < |r| ==> Almacenado(s, r[i])
    ensures forall k :: k in s.usuarios ==> s.usuarios[k] in r
    ensures forall i, j :: 0 <= i < j < |r| ==> IdDe(r[i]) < IdDe(r[j])
  {
    var ks := Claves(s.usuarios, s.siguiente, (x: Usuario) => true);
    var r := Filas(s.usuarios, ks);
    assert forall i :: 0 <= i < |r| ==> IdDe(r[i]) == ks[i] && Almacenado(s, r[i]) by {
      forall i | 0 <= i < |r|
        ensures IdDe(r[i]) == ks[i] && Almacenado(s, r[i])
      {
        assert ks[i] in ks;
      }
    }
    assert forall k :: k in s.usuarios ==> s.usuarios[k] in r by {
      forall k | k in s.usuarios
        ensures s.usuarios[k] in r
      {
        assert k in ks;
        var i :| 0 <= i < |ks| && ks[i] == k;
        assert r[i] == s.usuarios[k];
      }
    }
    r
  }

  /** Whether another row than `id` already holds the username or the email of `u`. */
  function Choque(m: map<Id, Usuario>, id: Id, u: Usuario): (r: Option<string>)
    ensures r.None? <==> forall k :: k in m && k != id ==> m[k].username != u.username && m[k].email != u.email
    ensures r == Some("username") <==> exists k :: k in m && k != id && m[k].username == u.username
  {
    if exists k :: k in m && k != id && m[k].username == u.username then Some("username")
    else if exists k :: k in m && k != id && m[k].email == u.email then Some("email")
    else None
  }

  /** `save` of a new user: bean validation, then the unique columns, then an
      INSERT under the next identity value. */
  function Persistir(s: Store, u: Usuario): (r: Result<(Store, Usuario), Error>)
    requires Valid(s)
    ensures !CamposValidos(u) ==> r == Failure(ConstraintViolation(MensajeCampos(u)))
    ensures CamposValidos(u) ==>
      (r.Failure? <==> exists k :: k in s.usuarios && (s.usuarios[k].username == u.username || s.usuarios[k].email == u.email))
    ensures r.Failure? && CamposValidos(u) ==> r.error.DataIntegrityViolation?
    ensures r.Success? ==>
      var (s2, creado) := r.value;
      && Valid(s2)
      && s.siguiente !in s.usuarios
      && creado == u.(id := Some(s.siguiente))
      && s2.usuarios == s.usuarios[s.siguiente := creado]
  {
    if !CamposValidos(u) then Failure(ConstraintViolation(MensajeCampos(u)))
    else match Choque(s.usuarios, s.siguiente, u)
      case Some(columna) => Failure(DataIntegrityViolation(columna))
      case None =>
        var creado := u.(id := Some(s.siguiente));
        Success((Store(s.usuarios[s.siguiente := creado], s.siguiente + 1), creado))
  }

  /** `save` of a user whose row exists: bean validation, then the unique columns
      against the other rows, then an UPDATE of that row. */
  function Guardar(s: Store, u: Usuario): (r: Result<Store, Error>)
    requires Valid(s)
    requires u.id.Some? && u.id.value in s.usuarios
    ensures !CamposValidos(u) ==> r == Failure(ConstraintViolation(MensajeCampos(u)))
    ensures CamposValidos(u) ==>
      (r.Failure? <==> exists k :: k in s.usuarios && k != u.id.value
                         && (s.usuarios[k].username == u.username || s.usuarios[k].email == u.email))
    ensures r.Success? ==> Valid(r.value) && r.value.usuarios == s.usuarios[u.id.value := u]
  {
    if !CamposValidos(u) then Failure(ConstraintViolation(MensajeCampos(u)))
    else match Choque(s.usuarios, u.id.value, u)
      case Some(columna) => Failure(DataIntegrityViolation(columna))
      case None => Success(s.(usuarios := s.usuarios[u.id.value := u]))
  }

  /** `save(u)` as Spring Data runs it: a user whose id names a stored row
      is merged into that row; any other user is inserted. */
  function SaveAsWritten(s: Store, u: Usuario): (r: Result<(Store, Usuario), Error>)
    requires Valid(s)
    ensures r.Success? ==> Valid(r.value.0)
  {
    if u.id.Some? && u.id.value in s.usuarios then
      match Guardar(s, u)
      case Success(s2) => Success((s2, u))
      case Failure(e) => Failure(e)
    else Persistir(s, u)
  }

  /** `deleteById(id)` of an existing row. */
  function Borrar(s: Store, id: Id): (r: Store)
    requires Valid(s) && id in s.usuarios
    ensures Valid(r) && r.usuarios == s.usuarios - {id}
  {
    s.(usuarios := s.usuarios - {id})
  }
}

=== FILE: usuario_service.dfy ===
/** The user service: registration with username and email uniqueness checks,
    the credential check used by login, update, delete and lookups. */
module UsuarioService {
  import opened Wrappers
  import opened Tabla
  import opened Errores
  import opened Usuarios
  import opened UsuarioRepository
  import Orden

  const MensajeUsernameEnUso: string := "El username ya está en uso"
  const MensajeEmailEnUso: string := "El email ya está en uso"

  /** The not-found error of the user operations. */
  function NoEncontrado(id: Id): Error {
    EntityNotFound("Usuario", id)
  }

  /** `crearUsuario(u)`: a taken username is reported first, then a taken email;
      otherwise the user is inserted under a fresh id and no other row changes. */
  function CrearUsuario(s: Store, u: Usuario): (r: Result<(Store, Usuario), Error>)
    requires Valid(s)
    ensures ExistsByUsername(s, u.username) ==> r == Failure(Runtime(MensajeUsernameEnUso))
    ensures !ExistsByUsername(s, u.username) && ExistsByEmail(s, u.email) ==>
      r == Failure(Runtime(MensajeEmailEnUso))
    ensures !ExistsByUsername(s, u.username) && !ExistsByEmail(s, u.email) ==>
      (r.Failure? <==> !CamposValidos(u))
    ensures r.Success? ==>
      var (s2, creado) := r.value;
      && Valid(s2)
      && creado.id.Some? && creado.id.value !in s.usuarios
      && creado == u.(id := creado.id)
      && s2.usuarios.Keys == s.usuarios.Keys + {creado.id.value}
      && s2.usuarios[creado.id.value] == creado
      && (forall k :: k in s.usuarios ==> s2.usuarios[k] == s.usuarios[k])
  {
    if ExistsByUsername(s, u.username) then Failure(Runtime(MensajeUsernameEnUso))
    else if ExistsByEmail(s, u.email) then Failure(Runtime(MensajeEmailEnUso))
    else Persistir(s, u)
  }

  /** The checks before the insert leave the unique columns nothing to reject:
      registration fails on a constraint only through a blank field. */
  lemma CrearUsuarioSinViolacionDeUnicidad(s: Store, u: Usuario)
    requires Valid(s)
    ensures !CrearUsuario(s, u).Failure? || !CrearUsuario(s, u).error.DataIntegrityViolation?
  {
  }

  /** `crearUsuario(u)` as written: the body goes to `save` unchanged, so a body
      carrying the id of a stored user overwrites that account. */
  function CrearUsuarioAsWritten(s: Store, u: Usuario): (r: Result<(Store, Usuario), Error>)
    requires Valid(s)
    ensures ExistsByUsername(s, u.username) ==> r == Failure(Runtime(MensajeUsernameEnUso))
    ensures !ExistsByUsername(s, u.username) && ExistsByEmail(s, u.email) ==>
      r == Failure(Runtime(MensajeEmailEnUso))
    ensures r.Success? ==> Valid(r.value.0)
    ensures !(u.id.Some? && u.id.value in s.usuarios) ==> r == CrearUsuario(s, u)
    ensures !ExistsByUsername(s, u.username) && !ExistsByEmail(s, u.email) && u.id.Some? && u.id.value in s.usuarios ==>
      && (r.Failure? <==> !CamposValidos(u))
      && (r.Success? ==> r.value == (s.(usuarios := s.usuarios[u.id.value := u]), u))
  {
    if ExistsByUsername(s, u.username) then Failure(Runtime(MensajeUsernameEnUso))
    else if ExistsByEmail(s, u.email) then Failure(Runtime(MensajeEmailEnUso))
    else SaveAsWritten(s, u)
  }

  /** Registering with a fresh username and email but the id of user 1 replaces
      user 1's credentials: "ana" can no longer log in and the new password opens
      account 1. */
  lemma CrearUsuarioAsWrittenSobrescribeCuenta()
    ensures
      var ana := Usuario(Some(1), "ana", "ana@x.es", "secreta", true, 0);
      var s := Store(map[1 := ana], 2);
      var cuerpo := Usuario(Some(1), "eva", "eva@x.es", "clave", true, 7);
      && Valid(s)
      && CrearUsuarioAsWritten(s, cuerpo).Success?
      && CrearUsuarioAsWritten(s, cuerpo).value.0.usuarios == map[1 := cuerpo]
      && !VerificarCredenciales(CrearUsuarioAsWritten(s, cuerpo).value.0, "ana", "secreta")
      && CrearUsuario(s, cuerpo).Success?
      && CrearUsuario(s, cuerpo).value.0.usuarios[1] == ana
  {
    var ana := Usuario(Some(1), "ana", "ana@x.es", "secreta", true, 0);
    var s := Store(map[1 := ana], 2);
    var cuerpo := Usuario(Some(1), "eva", "eva@x.es", "clave", true, 7);
    assert CamposValidos(ana) by {
      assert ana.username[0] == 'a' && ana.email[0] == 'a' && ana.password[0] == 's';
    }
    assert CamposValidos(cuerpo) by {
      assert cuerpo.username[0] == 'e' && cuerpo.email[0] == 'e' && cuerpo.password[0] == 'c';
    }
    assert ana.username != cuerpo.username by { assert ana.username[0] != cuerpo.username[0]; }
    assert ana.email != cuerpo.email by { assert ana.email[0] != cuerpo.email[0]; }
    assert Valid(s);
    assert !ExistsByUsername(s, cuerpo.username) && !ExistsByEmail(s, cuerpo.email);
    assert s.usuarios[1 := cuerpo] == map[1 := cuerpo];
    var s2 := Store(map[1 := cuerpo], 2);
    assert CrearUsuarioAsWritten(s, cuerpo) == Success((s2, cuerpo));
    assert "eva" != "ana" by { assert "eva"[0] != "ana"[0]; }
    assert FindByUsername(s2, "ana").None?;
  }

  /** `verificarCredenciales(n, p)`: the user named `n` exists and its password is
      exactly `p`. */
  function VerificarCredenciales(s: Store, n: string, p: string): (ok: bool)
    requires Valid(s)
    ensures ok <==> exists k :: k in s.usuarios && s.usuarios[k].username == n && s.usuarios[k].password == p
  {
    var encontrado := FindByUsername(s, n);
    assert (exists k :: k in s.usuarios && s.usuarios[k].username == n && s.usuarios[k].password == p) ==>
      encontrado.Some? && encontrado.value.password == p by {
      if k :| k in s.usuarios && s.usuarios[k].username == n && s.usuarios[k].password == p {
        FindByUsernameUnico(s, k);
      }
    }
    match encontrado
    case None => false
    case Some(u) => u.password == p
  }

  /** The credential check holds exactly for the stored (username, password) pairs. */
  lemma VerificarCredencialesIff(s: Store, n: string, p: string)
    requires Valid(s)
    ensures VerificarCredenciales(s, n, p) <==>
      exists k :: k in s.usuarios && s.usuarios[k].username == n && s.usuarios[k].password == p
  {
    if r :| r in s.usuarios && s.usuarios[r].username == n && s.usuarios[r].password == p {
      var u := FindByUsername(s, n).value;
      assert u == s.usuarios[r];
    }
  }

  /** `obtenerUsuarioPorId(id)`. */
  function ObtenerUsuarioPorId(s: Store, id: Id): (r: Option<Usuario>)
    ensures r.Some? <==> id in s.usuarios
    ensures r.Some? ==> r.value == s.usuarios[id]
  {
    FindById(s, id)
  }

  /** `obtenerUsuarioPorUsername(n)`. */
  function ObtenerUsuarioPorUsername(s: Store, n: string): (r: Option<Usuario>)
    requires Valid(s)
    ensures r.Some? ==> Almacenado(s, r.value) && r.value.username == n
    ensures r.None? <==> !ExistsByUsername(s, n)
  {
    FindByUsername(s, n)
  }

  /** `obtenerTodosUsuarios()`. */
  function ObtenerTodosUsuarios(s: Store): (r: seq<Usuario>)
    requires Valid(s)
    ensures forall i :: 0 <= i < |r| ==> Almacenado(s, r[i])
    ensures forall k :: k in s.usuarios ==> s.usuarios[k] in r
  {
    FindAll(s)
  }

  /** `obtenerTodosUsuarios(pageable)` over the rows in id order. */
  function ObtenerTodosUsuariosPaginado(s: Store, page: nat, size: nat): (r: seq<Usuario>)
    requires Valid(s) && size > 0
    ensures |r| <= size
    ensures forall i :: 0 <= i < |r| ==> Almacenado(s, r[i])
    ensures Orden.EsPagina(r, FindAll(s), page, size)
  {
    Orden.PaginaEsPagina(FindAll(s), page, size);
    Orden.Pagina(FindAll(s), page, size)
  }

  /** `actualizarUsuario(id, cambios)`: overwrites username, email and password of
      the stored row, keeping its id, flag and creation instant. */
  function ActualizarUsuario(s: Store, id: Id, cambios: Usuario): (r: Result<(Store, Usuario), Error>)
    requires Valid(s)
    ensures id !in s.usuarios ==> r == Failure(NoEncontrado(id))
    ensures id in s.usuarios && !CamposValidos(cambios) ==> r.Failure? && r.error.ConstraintViolation?
    ensures r.Success? ==>
      var (s2, u) := r.value;
      && Valid(s2) && id in s.usuarios
      && u == s.usuarios[id].(username := cambios.username, email := cambios.email, password := cambios.password)
      && s2.usuarios == s.usuarios[id := u]
    ensures id in s.usuarios && CamposValidos(cambios) ==>
      (r.Failure? <==> exists k :: k in s.usuarios && k != id
                         && (s.usuarios[k].username == cambios.username || s.usuarios[k].email == cambios.email))
  {
    match FindById(s, id)
    case None => Failure(NoEncontrado(id))
    case Some(actual) =>
      var u := actual.(username := cambios.username, email := cambios.email, password := cambios.password);
      match Guardar(s, u)
      case Success(s2) => Success((s2, u))
      case Failure(e) => Failure(e)
  }

  /** `eliminarUsuario(id)`. */
  function EliminarUsuario(s: Store, id: Id): (r: Result<Store, Error>)
    requires Valid(s)
    ensures id !in s.usuarios <==> r.Failure?
    ensures r.Failure? ==> r.error == NoEncontrado(id)
    ensures r.Success? ==> Valid(r.value) && r.value.usuarios == s.usuarios - {id}
  {
    if id in s.usuarios then Success(Borrar(s, id)) else Failure(NoEncontrado(id))
  }

  /** A registered user can log in with the password given at registration. */
  lemma RegistrarLuegoVerificar(s: Store, u: Usuario)
    requires Valid(s)
    requires CrearUsuario(s, u).Success?
    ensures VerificarCredenciales(CrearUsuario(s, u).value.0, u.username, u.password)
  {
    var (s2, creado) := CrearUsuario(s, u).value;
    VerificarCredencialesIff(s2, u.username, u.password);
    assert creado.id.value in s2.usuarios;
  }

  /** A second registration with the same username fails, whatever the email. */
  lemma RegistroDuplicadoFalla(s: Store, u: Usuario, v: Usuario)
    requires Valid(s)
    requires CrearUsuario(s, u).Success? && v.username == u.username
    ensures CrearUsuario(CrearUsuario(s, u).value.0, v) == Failure(Runtime(MensajeUsernameEnUso))
  {
    var (s2, creado) := CrearUsuario(s, u).value;
    assert s2.usuarios[creado.id.value].username == v.username;
  }
}

=== FILE: wrappers.dfy ===
/** Option and Result, the two failure-compatible wrappers the model uses in place of
    Java's null / Optional and thrown exceptions. */
module Wrappers {

  /** Java's `Optional<T>` and every nullable reference. */
  datatype Option<+T> = None | Some(value: T) {
    predicate IsFailure() {
      None?
    }

    function PropagateFailure<U>(): Option<U>
      requires None?
    {
      None
    }

    function Extract(): T
      requires Some?
    {
      value
    }
  }

  /** The outcome of an operation that either returns a value or throws. */
  datatype Result<+R, +E> = Success(value: R) | Failure(error: E) {
    predicate IsFailure() {
      Failure?
    }

    function PropagateFailure<U>(): Result<U, E>
      requires Failure?
    {
      Failure(error)
    }

    function Extract(): R
      requires Success?
    {
      value
    }
  }
}
